=== FILE: README.md ===
# Student record engine — Dafny model

A model of the flat-file student store of `with_txt/student.c` and
`with_txt/student.h`.

A student is an id, a name of at most 49 characters and up to 20 scores. Students are kept one per line in a text file:

    id name count s1 ... s_count      e.g.   1 Jean 2 12.50 15.75

The store has four operations:

- `createStudent` appends a line.
- `readStudent` scans the lines in order for the first matching id.
- `updateStudent` rewrites every line to a temporary file, replacing each match.
- `deleteStudent` rewrites every line to a temporary file, dropping each match.

The model has three layers.

- **Records** (`option.dfy`, `student.dfy`, `records.dfy`):
  - `Student` is the struct.
  - Scores are integer hundredths (`Centi`), so `%.2f` text is exact.
  - `InitStudent` and `AddNote` model initStudent and addNote.
  - `FromLine` is what the scan loop makes of one line: initStudent, then addNote once per score.
  - `Average` models calculateAverage.
  - `RecordList` holds the list transformations: first-match search, replace every match, and remove every match.
- **Storage** (`storage.dfy`, `engine.dfy`):
  - The file is `Missing`, or `Present` with its lines in order.
  - Each line is kept as it was written: any name length, any number of scores.
  - Each operation is a function of the file.
  - Whether `fopen` succeeds is a boolean parameter.
  - `Engine` re-states the scan loops of readStudent, updateStudent and deleteStudent as loops over the lines. It proves they compute those functions.
- **Text** (`numerals.dfy`, `lexer.dfy`, `codec.dfy`, `linereader.dfy`, `textfile.dfy`):
  - `%d` and `%.2f` printing and parsing.
  - The whitespace tokens `fscanf` reads.
  - The line encoder.
  - The decoder of the `while (!feof)` loop, including its behaviour on a partial trailing line and on a count larger than the scores on its line (the `%f` loop reads on into the next line).
  - The proof that a file written by the operations reads back as its lines.
  - `LineReader`, a corrected reader for the defect under "## Findings". It reads the file one line at a time and skips a line that is not in the layout createStudent writes: three header fields, then exactly as many readable scores as the count says.

### Behaviour of the code worth knowing

- **Lines with more than 20 scores are truncated on any rewrite.** The comment at `with_txt/student.c:197` says the other lines are copied as they are ("tel quel"). The code prints each line as decoded, and addNote caps the count at 20. So a line declaring more scores keeps only its first 20 once any update or delete rewrites the file, even one aimed at another id. `UpdateTruncatesOverfullLine` and `DeleteTruncatesOverfullLine` state it. Update with an unknown id therefore leaves the file unchanged only when every line fits the struct (`UpdateUnknownId`).
- **The old file is removed before the new one is renamed.** Update and delete call `remove` and then `rename` (`with_txt/student.c:159-160` and `210-211`). Between the two calls no data file exists.
- **Delete reports whether a line matched.** The header documents deleteStudent as returning 1 on success (`with_txt/student.h:75-81`). The code returns 1 exactly when some line carried the id.
- **The line sequence is what the scan reads only for one-token names.** A name is written with `%s` and read back with `%s`, which stops at whitespace. The console reads names with `fgets` (`with_txt/main.c:36` and `93`), so an empty name or one with a space can reach the file. The read-back lemmas of `Storage` therefore require every name to be one non-empty token (`Writable`); see the finding below for what happens otherwise.

## Model

| member | source | states |
|---|---|---|
| StudentRecord.TruncateName | with_txt/student.c:12-13 | the stored name is a prefix of the given name, of length min(len, 49) |
| StudentRecord.InitStudent | with_txt/student.c:9-15 | the given id, no scores, the name cut to at most MAX_NAME_LEN - 1 characters as a prefix; the result fits the struct |
| StudentRecord.AddNote | with_txt/student.c:17-24 | below MAX_NOTES the score is appended (count + 1); at MAX_NOTES the record is unchanged; a record that fits the struct still fits |
| StudentRecord.AddNotes | with_txt/student.c:91-95 | the id and name are kept, the old scores stay a prefix of the new ones, a record that fits keeps at most 20 scores, and a full record is unchanged |
| StudentRecord.AddNotesKeepsPrefix | with_txt/student.c:88-95 | repeated addNote keeps exactly the first MAX_NOTES - count scores offered, in order, and drops the rest |
| StudentRecord.OneTooManyIsRejected | with_txt/student.c:19-23 | offering 21 scores to a fresh record stores exactly the first 20 |
| StudentRecord.FromLine | with_txt/student.c:87-95 | a decoded line fits the struct, keeps the id, has the truncated name and the first min(count, 20) scores, and is the line itself when the line already fits |
| StudentRecord.Average | with_txt/student.c:26-33 | 0 when there are no scores, otherwise the value whose product with the count is the sum |
| StudentRecord.AverageWithinBounds | with_txt/student.c:26-33 | when every score lies in [lo, hi] the average does too |
| StudentRecord.AverageExample | with_txt/student.h:35-40 | the mean of 10.00 and 20.00 is 15.00, and that of 12.50 and 15.75 is 14.125 |
| RecordList.FirstMatch | with_txt/student.c:86-103 | None exactly when no record has the id; otherwise a record with that id at an index before which no record has it |
| RecordList.ReplaceMatching | with_txt/student.c:141-145 | same length and order; each record with the id becomes the new record, every other record is kept |
| RecordList.RemoveMatching | with_txt/student.c:193-203 | the length drops by the number of matches and no kept record has the id |
| RecordList.RemoveContents | with_txt/student.c:193-203 | a record is kept iff it was present and has another id; each kept record keeps its multiplicity |
| RecordList.RemoveShrinksIffFound | with_txt/student.c:193-213 | removal shortens the list iff some record had the id |
| RecordList.RemoveNothing | with_txt/student.c:196-203 | with no match, removal returns the list unchanged |
| RecordList.RemoveDistributes | with_txt/student.c:184-205 | removal over a concatenation is the concatenation of the removals, so order is kept |
| RecordList.RemoveIdempotent | with_txt/student.c:165-214 | removing the same id twice is removing it once |
| RecordList.ReadAfterRemove | with_txt/student.c:193-203 | after removal the id is not found, and any other id finds what it found before |
| RecordList.ReplaceNothing | with_txt/student.c:141-145 | with no match, replacement returns the list unchanged |
| RecordList.ReplaceIdempotent | with_txt/student.c:141-145 | replacing twice is replacing once |
| RecordList.ReadAfterReplace | with_txt/student.c:141-145 | after a matching replacement the id finds the new record; any other id finds what it found before |
| RecordList.ReadAfterAppend | with_txt/student.c:56-71 | appending does not change what an existing id finds (no duplicate check, the first line wins); a new id finds the appended record |
| Storage.LoadAll | with_txt/student.c:86-103 | one decoded record per line, in order, each being FromLine of its line |
| Storage.LoadAllKeepsIds | with_txt/student.c:87-89 | decoding keeps the set of ids present |
| Storage.LoadAllFixesValid | with_txt/student.c:87-95 | a file whose lines fit the struct decodes to itself |
| Storage.Create | with_txt/student.c:56-71 | returns 1 iff the file opens for appending; on failure nothing changes; on success the file exists, grows by exactly one line at the end, and earlier lines are untouched |
| Storage.Read | with_txt/student.c:73-106 | None iff the file is missing or no line has the id; otherwise the first line with the id, decoded, which fits the struct |
| Storage.Update | with_txt/student.c:108-163 | missing file or temp file: 0 and no change; otherwise returns whether the id was present, keeps the line count, puts the new record at every match and the decoded line everywhere else |
| Storage.Delete | with_txt/student.c:165-214 | missing file or temp file: 0 and no change; otherwise returns whether the id was present and keeps exactly the decoded lines with another id, in order |
| Storage.ReadValidLines | with_txt/student.c:86-103 | a file whose lines all fit the struct reads as a plain first-match search over its lines |
| Storage.ReadOtherLoaded | with_txt/student.c:86-103 | when decoding leaves every line of other ids unchanged, any other id finds the same line |
| Storage.RemoveKeepsValid | with_txt/student.c:196-203 | every line delete keeps fits the struct |
| Storage.CountIdLoaded | with_txt/student.c:184-205 | decoding keeps the number of lines carrying each id |
| Storage.ReadAfterCreate | with_txt/student.c:56-106 | when every name is one token: after a create, an id already present reads as before, and a new id reads as the appended line, decoded |
| Storage.CreateThenRead | with_txt/student.h:50-65 | when every name is one token, a record that fits the struct and has a new id reads back as itself after createStudent |
| Storage.UpdateUnknownId | with_txt/student.c:141-163 | updating an absent id in a file of well-formed lines returns 0 and leaves the file as it was |
| Storage.ReadAfterUpdate | with_txt/student.c:108-163 | when every name is one token, after an update that matched the id reads back as the new record |
| Storage.ReadOtherAfterUpdate | with_txt/student.c:108-163 | when every name is one token, an update leaves every other id reading as before |
| Storage.ReadAfterDelete | with_txt/student.c:165-214 | after a delete the id reads as not found |
| Storage.ReadOtherAfterDelete | with_txt/student.c:165-214 | a delete leaves every other id reading as before |
| Storage.UpdateTruncatesOverfullLine | with_txt/student.c:133-151 | a line of another id with more than 20 scores is cut to its first 20 by any update, which therefore changes the file |
| Storage.DeleteTruncatesOverfullLine | with_txt/student.c:185-202 | such a line survives a delete of another id only in decoded, cut form |
| Storage.Scenario | with_txt/student.c:48-54 | create Jean (1) and Alice (2); Jean reads back; deleting 1 succeeds; then 1 is not found and Alice reads back unchanged |
| Engine.DecodeLine | with_txt/student.c:87-95 | the initStudent-then-addNote loop computes FromLine |
| Engine.ReadStopsAt | with_txt/student.c:97-101 | the line where the scan breaks is what readStudent returns |
| Engine.ReadStudent | with_txt/student.c:73-106 | the scan loop that stops at the first match returns Read |
| Engine.UpdateRewrite | with_txt/student.c:141-151 | a pointwise rewrite with the found flag is the result of Update |
| Engine.UpdateStudent | with_txt/student.c:108-163 | the rewrite loop computes Update, both the flag and the file |
| Engine.RemoveStep | with_txt/student.c:193-203 | scanning one more line extends the kept records by that line unless it matches |
| Engine.HasIdStep | with_txt/student.c:193-195 | scanning one more line sets the found flag iff it was set or that line matches |
| Engine.CopyAllBut | with_txt/student.c:184-205 | the delete loop's flag is whether the id occurs, and its output is the decoded lines with another id |
| Engine.DeleteStudent | with_txt/student.c:165-214 | the delete procedure computes Delete |
| Numerals.DigitChar | with_txt/student.c:64 | a digit character whose value is the digit |
| Numerals.NatToString | with_txt/student.c:64 | decimal text of a natural number: non-empty, all digits |
| Numerals.ParseInt | with_txt/student.c:87 | `%d` succeeds exactly on digits with an optional sign in front; a minus gives a value at most 0, otherwise at least 0 |
| Numerals.ParseDigits | with_txt/student.c:87 | succeeds exactly on non-empty runs of digits |
| Numerals.NatRoundTrip | with_txt/student.c:64 | parsing the decimal text of n gives n |
| Numerals.IntToString | with_txt/student.c:64 | `%d` text: non-empty, digits after the first character, and a leading minus exactly for negative numbers |
| Numerals.IntRoundTrip | with_txt/student.c:64 | `%d` then `%d` scanning gives back any integer |
| Numerals.ScoreToString | with_txt/student.c:66 | `%.2f` text: a point before exactly two fraction digits, only digits, minus and point |
| Numerals.CentiText | with_txt/student.c:66 | whole part, point, two fraction digits |
| Numerals.CentiTextRoundTrip | with_txt/student.c:66 | scanning whole.ab gives 100 * whole + 10 * a + b |
| Numerals.ParseScore | with_txt/student.c:92 | `%f` reads a non-empty token whose sign is the sign of the value |
| Numerals.UnsignedScoreStartsWithDigit | with_txt/student.c:92 | every unsigned spelling `%f` reads here starts with a digit |
| Numerals.PlainLetterIsNotNumber | with_txt/student.c:87-92 | a token starting with an ASCII letter other than `i`, `I`, `n`, `N` is read neither by `%d` nor by `%f` |
| Numerals.IntegerScore | with_txt/student.c:92 | `%f` reads a token `%d` accepts as that integer in whole units (100 times it in hundredths) |
| Numerals.ScoreRoundTrip | with_txt/student.c:92 | `%.2f` then `%f` scanning gives back every score in hundredths, negative ones included |
| Lexer.Tokens | with_txt/student.c:87 | a single whitespace-free word is read as itself, and blank text as nothing |
| Lexer.TakeTokenBeforeMore | with_txt/student.c:87 | whitespace after a text does not change the token at its head |
| Lexer.TokensTrailingLineFeed | with_txt/student.c:87 | a trailing line feed adds no token |
| Lexer.TakeToken | with_txt/student.c:87 | the longest whitespace-free prefix |
| Lexer.TokensAreTokens | with_txt/student.c:87 | every piece `fscanf` reads is non-empty and holds no whitespace |
| Lexer.TokensAfterToken | with_txt/student.c:87 | a token followed by whitespace is read as exactly itself |
| Lexer.JoinLineTokens | with_txt/student.c:64-68 | a line of tokens joined by spaces and ended by a line feed, followed by anything, is read back as its tokens first |
| Lexer.RenderTokens | with_txt/student.c:86-103 | a file of such lines, followed by anything, is read as all their tokens in order |
| Lexer.Render | with_txt/student.c:64-68 | the text of lines is empty exactly when there are none and otherwise ends in a line feed |
| Lexer.RenderAppend | with_txt/student.c:58-68 | appending a line to the lines appends its text to the file |
| Codec.LineTokens | with_txt/student.c:64-68 | a record is written as 3 + count fields |
| Codec.EncodeLine | with_txt/student.c:64-68 | a line starts with the id's `%d` text and ends in a line feed |
| Codec.EncodeFile | with_txt/student.c:147-151 | the text of records is empty exactly when there are none and otherwise ends in a line feed |
| Codec.ParseScores | with_txt/student.c:91-95 | the scores are read exactly when every token is a `%f` number, one score per token |
| Codec.ParseRecords | with_txt/student.c:86-103 | the scan loop as written: a first token `%d` cannot read gives no result (the loop spins); each record read takes at least three tokens; each name read is one of the tokens |
| Codec.DecodeFile | with_txt/student.c:84-103 | whatever the loop reads from a text has one-token names |
| Codec.ScoresRoundTrip | with_txt/student.c:91-95 | the scores written for a record scan back as the same scores |
| Codec.ParseFields | with_txt/student.c:87-95 | a header whose count matches the scores is read as one line and the scan carries on after its last score |
| Codec.ParseLine | with_txt/student.c:87-95 | a written record's fields are read back as that record, then scanning continues |
| Codec.FileRoundTrip | with_txt/student.c:48-54 | a file written from records whose names are single tokens scans back as exactly those records, whatever their score counts |
| Codec.EncodeFileAppend | with_txt/student.c:58-68 | a file of one more record is the old text followed by that record's line |
| Codec.EmptyNameIsLost | with_txt/student.c:64 | an empty name is written as `5  0`, which the scan reads as a partial line and drops |
| Codec.EmptyNameThen | with_txt/student.c:64-68 | a line for an empty name followed by a line for a one-token name is read as `5`, `0` and then that line's tokens |
| Codec.EmptyNameHeader | with_txt/student.c:87 | on those tokens the header read finds 5, the name `0`, and the next id as the count, followed by a name starting with a letter other than `i` or `n`, which neither `%d` nor `%f` reads |
| Codec.EmptyNameHangsLaterLines | with_txt/student.c:86-95 | as written, when the second name starts with a letter other than `i` or `n` (such as `Alice`), the scan of those two lines never finishes: no result |
| Codec.LeadingScores | with_txt/student.c:91-95 | the scores in front of the first token `%f` cannot read, in order |
| Codec.ScanUntilStuck | with_txt/student.c:86-95 | one terminating variant of the loop, which stops at the first line it cannot read and loses every line after it: at most one record per three tokens, none when the first token is not a number |
| Codec.ScoresAgree | with_txt/student.c:91-95 | where every score token reads, the stopping score scan reads the same scores |
| Codec.ScanAgrees | with_txt/student.c:86-103 | wherever the loop as written finishes, the terminating variant reads the same records |
| Codec.ScanStopsAtUnreadable | with_txt/student.c:86-95 | the terminating variant keeps a header followed by an unreadable token as a record with no scores and reads nothing after it |
| Codec.EmptyNameStopsScan | with_txt/student.c:86-95 | for such a second name, the terminating variant reads the empty-name line as id 5 with name `0` and no scores, and stops before the second line |
| LineReader.TakeLine | with_txt/student.c:86-95 | the text in front of the first line feed, holding none |
| LineReader.SplitAtLineFeed | with_txt/student.c:68 | the line feed written after each record ends exactly that line |
| LineReader.ReadLine | with_txt/student.c:87-95 | a line is read only when it has the three header fields and as many scores as its count; the record's id and name are the line's first and second fields |
| LineReader.ReadLines | with_txt/student.c:86-103 | the corrected reader: the records of the readable lines in order, each name one token |
| LineReader.ReadLinesStep | with_txt/student.c:86-103 | the reader takes the first line, then the text after its line feed |
| LineReader.SpacedHasNoLineFeed | with_txt/student.c:64-67 | the fields written with single spaces hold no line feed |
| LineReader.LineBody | with_txt/student.c:64-68 | a written line is its fields up to the one line feed at its end |
| LineReader.ReadWrittenLine | with_txt/student.c:64-68 | a line written for a one-token name is read as that record |
| LineReader.EncodeFileCons | with_txt/student.c:58-68 | a file's text is its first line followed by the text of the rest |
| LineReader.ReadLinesCons | with_txt/student.c:86-103 | a written file reads as its first record, then the records of the rest |
| LineReader.ReadLinesRoundTrip | with_txt/student.c:48-54 | every written file of one-token names is read back line by line as exactly its records |
| LineReader.ReadersAgree | with_txt/student.c:86-103 | on such files the corrected reader and the loop as written give the same records |
| LineReader.EmptyNameLineSkipped | with_txt/student.c:64-68 | the `5  0` line of an empty name is skipped, whatever follows it |
| LineReader.EmptyNameSkipped | with_txt/student.c:86-103 | after that line, every record of a written file is still read |
| LineReader.ReadOneLine | with_txt/student.c:64-68 | a single written line is read as its record |
| LineReader.LineAfterEmptyName | with_txt/student.c:86-95 | the corrected reader reads the one-token-name line after the empty-name line, where the loop as written spins |
| LineReader.AliceAfterEmptyName | with_txt/student.c:86-95 | on `5  0` followed by `2 Alice 0`, the corrected reader finds Alice |
| TextFile.Text | with_txt/student.c:58-68 | the file's text is empty exactly when it has no lines, and otherwise ends in a line feed |
| TextFile.TruncatedTokenIsToken | with_txt/student.c:12-13 | truncating a one-token name leaves one token |
| TextFile.LoadAllWritable | with_txt/student.c:86-95 | decoding keeps one-token names one token |
| TextFile.CreateAppendsLine | with_txt/student.c:58-68 | after createStudent the text is the old text followed by exactly the new line |
| TextFile.DecodeAfterCreate | with_txt/student.c:56-106 | after createStudent the scan reads all earlier lines and then the new record |
| TextFile.ScanAfterCreate | with_txt/student.c:56-106 | the terminating variant reads the same records after createStudent |
| TextFile.CreateThenReadText | with_txt/student.c:56-106 | a fitting record with a new id and a one-token name reads back as itself from the text createStudent leaves |
| TextFile.UpdateKeepsWritable | with_txt/student.c:141-151 | updateStudent keeps every name a single token when the new one is |
| TextFile.DeleteKeepsWritable | with_txt/student.c:196-203 | deleteStudent keeps every name a single token |
| TextFile.UpdatedTextReadsBack | with_txt/student.c:132-160 | the file updateStudent writes scans back as exactly the records it wrote |
| TextFile.DeletedTextReadsBack | with_txt/student.c:184-211 | the file deleteStudent writes scans back as exactly the records it kept |

## Left out

- NULL-pointer guards of every function: Dafny values cannot be null.
- displayStudent: printing only.
- `with_txt/main.c` (the console menu) and `with_sqlite_and_python/main.py` (a separate SQLite version): not part of this model.
- File I/O:
  - `fopen` failures are the boolean parameters `canAppend` and `canOpenTemp`.
  - The fixed name `temp.txt` is not modelled, and neither is a concurrent writer.
  - The window between `remove` and `rename`, where a crash loses the file, is not modelled.
  - A file that exists but cannot be read is treated as absent, as the C code does.
- Average: the exact mean of the hundredths as a real. It does not model float summation, the float division or `%.2f` rounding; how a tie such as 14.125 prints depends on the C library.
- Scores are `float` in C, and the console reads them with `scanf("%f")` (`with_txt/main.c:48`). The model keeps them as whole hundredths (`Centi`). A score that is not a whole number of hundredths, such as 12.345, is rounded by `%.2f` when written, so it does not come back as entered. `Storage.CreateThenRead` and `Numerals.ScoreRoundTrip` are exact only because `Centi` excludes such scores.
- Codec.EmptyNameHangsLaterLines, Codec.EmptyNameStopsScan: stated only for a second name that starts with an ASCII letter other than `i`, `I`, `n` or `N`. The C library's `%f` also reads `inf`, `nan`, `infinity` and exponent and hexadecimal forms, which this model's `%f` does not; on such a name the program's loop does not spin.
- Ids, counts and scores are unbounded integers. The 32-bit `int` range and its overflow are not modelled.
- `fscanf` on text other than lines of one-token names whose count matches their scores is modelled only in part, because in C it is library behaviour rather than specified logic:
  - `DecodeFile` gives no result where a token that `%d` or `%f` cannot read would leave the C loop spinning.
  - Only the `%f` spellings `[-+]digits[.d[d]]` and `digits.` are read. Exponents, more than two decimals and partially numeric tokens are not.
  - readStudent stops at the first match, so text after that line is never scanned. `Storage.Read` works on the line sequence, where this makes no difference.
- Codec.ParseRecords, Codec.DecodeFile: C's `%d` reads the leading digits of a token such as `1.50`, and `%f` then reads the `.50` left over. The model reads no part of a token and gives no result there. Two cases reach this:
  - an empty name with scores, written as `5  1 1.50` for id 5 and the score 1.50;
  - a line whose count is below its number of scores, such as `1 Jean 1 12.50 15.75`, where the next header read meets `15.75`.
- A name longer than 49 characters in the file overflows the 50-byte `tempName` buffer when scanned with `%s`, which is undefined behaviour. The model instead truncates the name as initStudent would.
- Names containing `'\0'` are not modelled: `string` carries no terminator.
- Storage.Read, Storage.Update, Storage.Delete: the line sequence matches what the scan reads only when every name is one non-empty token. For other names the text reads back differently or the scan does not finish (see Findings), so the read-back lemmas `ReadAfterCreate`, `CreateThenRead`, `ReadAfterUpdate` and `ReadOtherAfterUpdate` promise nothing there.
- Codec.FileRoundTrip requires every name to be a single token. An empty name or one containing whitespace is not written in a form the scan can read back (`EmptyNameIsLost`).

## Findings

| source | as written | input that shows it | evidently intended | confidence | as-written member | corrected member |
|---|---|---|---|---|---|---|
| with_txt/student.c:86-95 | `while (!feof(fp))` ignores a failed header read, and a failed `%f` read consumes nothing, so a token neither `%d` nor `%f` reads is met again on every pass and the loop never ends; the same loop is at lines 132-140 and 184-192 | createStudent with id 5 and an empty name (possible through `fgets` in `with_txt/main.c:36`) writes `5  0`; after it a line `2 Alice 0`; readStudent for id 2 then takes `0` as the name and `2` as the count, and sticks at `Alice` | the read returns instead of spinning (readStudent is documented to return 1 or 0, `with_txt/student.h:58-65`), and well-formed lines such as `2 Alice 0` stay readable. A reader that takes the file line by line and skips a line it cannot read does both: it finds Alice after the empty-name line and reads every written file exactly as the loop does | high; not executed | Codec.EmptyNameHangsLaterLines | LineReader.ReadLines (LineReader.LineAfterEmptyName, LineReader.AliceAfterEmptyName, LineReader.ReadLinesRoundTrip, LineReader.ReadersAgree) |

=== FILE: codec.dfy ===
/** The record line `id name count s1 ... s_count` written by createStudent,
    updateStudent and deleteStudent, and the reading of a whole file by the
    `fscanf` loop shared by readStudent, updateStudent and deleteStudent. */
module Codec {
  import opened Optional
  import opened StudentRecord
  import opened Numerals
  import opened Lexer

  /** The fields of one line: `"%d %s %d"`, then each score as `"%.2f"`. */
  function LineTokens(s: Student): (r: seq<string>)
    ensures |r| == 3 + |s.notes|
  {
    [IntToString(s.id), s.name, IntToString(|s.notes|)] + ScoreTokens(s.notes)
  }

  function ScoreTokens(notes: seq<Centi>): (r: seq<string>)
    ensures |r| == |notes|
  {
    if notes == [] then [] else [ScoreToString(notes[0])] + ScoreTokens(notes[1..])
  }

  /** One line as createStudent writes it: the fields separated by single
      spaces, then a line feed. */
  function EncodeLine(s: Student): (r: string)
    ensures |r| >= 2 && r[|r| - 1] == '\n'
    ensures IntToString(s.id) <= r
  {
    JoinLine(LineTokens(s))
  }

  /** The fields of each line of a file. */
  function Layout(rs: seq<Student>): (ls: seq<seq<string>>)
    ensures |ls| == |rs|
    ensures forall i :: 0 <= i < |rs| ==> ls[i] == LineTokens(rs[i]) && |ls[i]| >= 1
  {
    seq(|rs|, i requires 0 <= i < |rs| => LineTokens(rs[i]))
  }

  /** A file holding the given lines in order. */
  function EncodeFile(rs: seq<Student>): (r: string)
    ensures r == [] <==> rs == []
    ensures rs != [] ==> r[|r| - 1] == '\n'
  {
    Render(Layout(rs))
  }

  /** The scores read by the `%f` loop from the given tokens. */
  function ParseScores(ts: seq<string>): (r: Option<seq<Centi>>)
    ensures r.Some? ==> |r.value| == |ts|
    ensures r.Some? <==> forall i :: 0 <= i < |ts| ==> ParseScore(ts[i]).Some?
  {
    if ts == [] then Some([])
    else
      match (ParseScore(ts[0]), ParseScores(ts[1..]))
      case (Some(v), Some(vs)) => Some([v] + vs)
      case _ => None
  }

  /** The lines the `while (!feof(fp))` loop reads from a token stream, each
      with every score it consumed (before addNote caps them).
      - `"%d %s %d"` is tried first. At the end of the stream, with no token
        or fewer than three left, it matches fewer than three fields and the
        loop stops: the partial line is dropped.
      - A declared count of k > 0 makes the `%f` loop consume the next k
        tokens, whichever line they sit on, stopping early only at the end of
        the stream; a count of 0 or less consumes none.
      - A token `%d` or `%f` cannot read is left unconsumed by `fscanf`, after
        which the C loop makes no progress: that stream has no result (None). */
  function ParseRecords(ts: seq<string>): (r: Option<seq<Student>>)
    ensures |ts| >= 1 && ParseInt(ts[0]).None? ==> r.None?
    ensures r.Some? ==> 3 * |r.value| <= |ts|
    ensures r.Some? ==> forall i :: 0 <= i < |r.value| ==> r.value[i].name in ts
    decreases |ts|
  {
    if ts == [] then Some([])
    else
      match ParseInt(ts[0])
      case None => None
      case Some(id) =>
        if |ts| < 3 then Some([])
        else
          match ParseInt(ts[2])
          case None => None
          case Some(count) =>
            var rest := ts[3..];
            var k := if count <= 0 then 0 else Min(count, |rest|);
            match (ParseScores(rest[..k]), ParseRecords(rest[k..]))
            case (Some(notes), Some(more)) => Some([Student(id, ts[1], notes)] + more)
            case _ => None
  }

  /** What the loop makes of a file's text: every name it reads is one
      token, so the records it yields can be written back readably. */
  function DecodeFile(text: string): (r: Option<seq<Student>>)
    ensures r.Some? ==> Writable(r.value)
  {
    TokensAreTokens(text);
    ParseRecords(Tokens(text))
  }

  /** Names the line format can carry: one non-empty token. */
  predicate Writable(rs: seq<Student>) {
    forall i :: 0 <= i < |rs| ==> IsToken(rs[i].name)
  }

  lemma {:induction false} ScoreTokensAreTokens(notes: seq<Centi>)
    ensures forall i :: 0 <= i < |notes| ==> IsToken(ScoreTokens(notes)[i])
  {
    if notes != [] {
      ScoreTokensAreTokens(notes[1..]);
      assert IsToken(ScoreToString(notes[0]));
    }
  }

  /** Every field of a line whose name is a token is a token. */
  lemma LineTokensAreTokens(s: Student)
    requires IsToken(s.name)
    ensures forall k :: 0 <= k < |LineTokens(s)| ==> IsToken(LineTokens(s)[k])
  {
    var ts := LineTokens(s);
    ScoreTokensAreTokens(s.notes);
    assert IsToken(IntToString(s.id)) && IsToken(IntToString(|s.notes|));
    assert forall i :: 3 <= i < |ts| ==> ts[i] == ScoreTokens(s.notes)[i - 3];
  }

  lemma WritableLayout(rs: seq<Student>)
    requires Writable(rs)
    ensures WellFormedLines(Layout(rs))
  {
    forall i | 0 <= i < |rs| {
      LineTokensAreTokens(rs[i]);
    }
  }

  lemma ParseScoresCons(t: string, ts: seq<string>, v: Centi, vs: seq<Centi>)
    requires ParseScore(t) == Some(v) && ParseScores(ts) == Some(vs)
    ensures ParseScores([t] + ts) == Some([v] + vs)
  {
    assert ([t] + ts)[1..] == ts;
  }

  lemma {:induction false} ScoresRoundTrip(notes: seq<Centi>)
    ensures ParseScores(ScoreTokens(notes)) == Some(notes)
  {
    if notes != [] {
      ScoreRoundTrip(notes[0]);
      ScoresRoundTrip(notes[1..]);
      ParseScoresCons(ScoreToString(notes[0]), ScoreTokens(notes[1..]), notes[0], notes[1..]);
      assert [notes[0]] + notes[1..] == notes;
    }
  }

  /** The loop reads a line whose three header fields and scores parse, and
      carries on right after its last score. */
  lemma ParseFields(idTok: string, name: string, countTok: string, scoreToks: seq<string>,
                    ts: seq<string>, id: int, notes: seq<Centi>)
    requires ParseInt(idTok) == Some(id) && ParseInt(countTok) == Some(|notes|)
    requires ParseScores(scoreToks) == Some(notes) && |scoreToks| == |notes|
    ensures ParseRecords([idTok, name, countTok] + scoreToks + ts)
         == match ParseRecords(ts)
            case Some(more) => Some([Student(id, name, notes)] + more)
            case None => None
  {
    var all := [idTok, name, countTok] + scoreToks + ts;
    var rest := all[3..];
    assert rest == scoreToks + ts;
    assert rest[..|notes|] == scoreToks;
    assert rest[|notes|..] == ts;
  }

  /** The loop reads a written line's fields back and then carries on right
      after its last score. */
  lemma ParseLine(s: Student, ts: seq<string>)
    ensures ParseRecords(LineTokens(s) + ts)
         == match ParseRecords(ts)
            case Some(more) => Some([s] + more)
            case None => None
  {
    IntRoundTrip(s.id);
    IntRoundTrip(|s.notes|);
    ScoresRoundTrip(s.notes);
    ParseFields(IntToString(s.id), s.name, IntToString(|s.notes|), ScoreTokens(s.notes),
                ts, s.id, s.notes);
  }

  lemma {:induction false} ParseFile(rs: seq<Student>)
    ensures ParseRecords(Flatten(Layout(rs))) == Some(rs)
  {
    if rs != [] {
      ParseFile(rs[1..]);
      assert Layout(rs)[1..] == Layout(rs[1..]);
      ParseLine(rs[0], Flatten(Layout(rs[1..])));
      assert [rs[0]] + rs[1..] == rs;
    }
  }

  /** Writing lines whose names are tokens and reading the file back gives
      the same lines, whatever their number of scores. */
  lemma FileRoundTrip(rs: seq<Student>)
    requires Writable(rs)
    ensures DecodeFile(EncodeFile(rs)) == Some(rs)
  {
    WritableLayout(rs);
    RenderTokens(Layout(rs), "");
    assert EncodeFile(rs) + "" == EncodeFile(rs);
    assert Tokens("") == [];
    assert Flatten(Layout(rs)) + [] == Flatten(Layout(rs));
    ParseFile(rs);
  }

  /** Appending a line to the text is appending a record to the file. */
  lemma EncodeFileAppend(rs: seq<Student>, s: Student)
    ensures EncodeFile(rs + [s]) == EncodeFile(rs) + EncodeLine(s)
  {
    assert Layout(rs + [s]) == Layout(rs) + [LineTokens(s)];
    RenderAppend(Layout(rs), LineTokens(s));
  }

  lemma EmptyNameLine()
    ensures EncodeLine(Student(5, "", [])) == "5  0\n"
  {
    assert IntToString(5) == "5";
    assert IntToString(0) == "0";
    assert LineTokens(Student(5, "", [])) == ["5", "", "0"];
  }

  lemma EmptyNameTokens(rest: string)
    ensures Tokens("5  0\n" + rest) == ["5", "0"] + Tokens(rest)
  {
    var x3 := "\n" + rest;
    var x2 := "0" + x3;
    var x1 := " " + x2;
    var x0 := " " + x1;
    assert "5  0\n" + rest == "5" + x0;
    TokensAfterToken("5", x0);
    TokensAfterSpace(' ', x1);
    TokensAfterSpace(' ', x2);
    TokensAfterToken("0", x3);
    TokensAfterSpace('\n', rest);
    AppendAssoc(["5"], ["0"], Tokens(rest));
  }

  /** An empty name breaks the format: the line `5  0` has two tokens, so
      `"%d %s %d"` takes `0` for the name, finds no count, and the record is
      lost. */
  lemma EmptyNameIsLost()
    ensures EncodeLine(Student(5, "", [])) == "5  0\n"
    ensures DecodeFile(EncodeLine(Student(5, "", []))) == Some([])
  {
    EmptyNameLine();
    EmptyNameTokens("");
    assert "5  0\n" + "" == "5  0\n";
    assert Tokens("") == [];
    assert ParseInt("5") == Some(5);
  }

  /** The scores the `%f` loop stores before the first token it cannot
      read; from that token on `fscanf` consumes nothing. */
  function LeadingScores(ts: seq<string>): (r: seq<Centi>)
    ensures |r| <= |ts|
    ensures forall i :: 0 <= i < |r| ==> ParseScore(ts[i]) == Some(r[i])
    ensures |r| < |ts| ==> ParseScore(ts[|r|]).None?
  {
    LeadingValues(seq(|ts|, i requires 0 <= i < |ts| => ParseScore(ts[i])))
  }

  /** The scan as the loop `while (fscanf(fp, "%d %s %d", ...) == 3)` runs
      it: it stops at the first header it cannot read in full, and right
      after a line with a score it cannot read (the next `%d` cannot read
      that token either), instead of spinning. Each line read is kept, and
      every line after the one it stops at is lost. */
  function ScanUntilStuck(ts: seq<string>): (r: seq<Student>)
    ensures 3 * |r| <= |ts|
    ensures |ts| >= 1 && ParseInt(ts[0]).None? ==> r == []
    decreases |ts|
  {
    if |ts| < 3 then []
    else
      match (ParseInt(ts[0]), ParseInt(ts[2]))
      case (Some(id), Some(count)) =>
        var rest := ts[3..];
        var k := if count <= 0 then 0 else Min(count, |rest|);
        var notes := LeadingScores(rest[..k]);
        if |notes| < k then [Student(id, ts[1], notes)]
        else [Student(id, ts[1], notes)] + ScanUntilStuck(rest[k..])
      case _ => []
  }

  lemma {:induction false} ScoresAgree(ts: seq<string>)
    requires ParseScores(ts).Some?
    ensures LeadingScores(ts) == ParseScores(ts).value
  {
    if ts != [] {
      ScoresAgree(ts[1..]);
    }
  }

  /** Wherever the loop as written ends, the stopping scan reads the same
      lines. */
  lemma {:induction false} ScanAgrees(ts: seq<string>)
    requires ParseRecords(ts).Some?
    ensures ScanUntilStuck(ts) == ParseRecords(ts).value
    decreases |ts|
  {
    if |ts| >= 3 {
      var count := ParseInt(ts[2]).value;
      var rest := ts[3..];
      var k := if count <= 0 then 0 else Min(count, |rest|);
      ScoresAgree(rest[..k]);
      ScanAgrees(rest[k..]);
    }
  }

  /** The tokens of a line written for an empty name, then another line. */
  lemma EmptyNameThen(other: Student)
    requires IsToken(other.name)
    ensures Tokens(EncodeLine(Student(5, "", [])) + EncodeLine(other)) == ["5", "0"] + LineTokens(other)
  {
    EmptyNameLine();
    EmptyNameTokens(EncodeLine(other));
    LineTokensAreTokens(other);
    JoinLineTokens(LineTokens(other), "");
    assert EncodeLine(other) + "" == EncodeLine(other);
    assert LineTokens(other) + [] == LineTokens(other);
  }

  /** What the header read finds on those tokens: 5, the name `0`, and the
      next line's id as the count, followed by that line's name, which
      starts with a letter no number starts with. */
  lemma EmptyNameHeader(other: Student, ts: seq<string>)
    requires StartsWithPlainLetter(other.name)
    requires ts == ["5", "0"] + LineTokens(other)
    ensures |ts| >= 4 && ParseInt(ts[0]) == Some(5) && ts[1] == "0"
    ensures ParseInt(ts[2]) == Some(other.id)
    ensures ts[3] == other.name && ParseScore(ts[3]).None? && ParseInt(ts[3]).None?
  {
    var lt := LineTokens(other);
    assert ts[2] == lt[0] == IntToString(other.id);
    assert ts[3] == lt[1] == other.name;
    IntRoundTrip(other.id);
    PlainLetterIsNotNumber(other.name);
    assert ParseInt(ts[0]) == Some(5) by {
      assert ts[0] == "5" == [DigitChar(5)];
    }
  }

  /** As written, the loop never gets past a line written for an empty name
      when a line for a non-numeric name such as `Alice` follows: `0` is
      taken as the name and the next id as the count, after which the name
      is a token neither `%f` nor `%d` consumes. */
  lemma EmptyNameHangsLaterLines(other: Student)
    requires IsToken(other.name) && StartsWithPlainLetter(other.name)
    ensures DecodeFile(EncodeLine(Student(5, "", [])) + EncodeLine(other)) == None
  {
    EmptyNameThen(other);
    var ts := ["5", "0"] + LineTokens(other);
    EmptyNameHeader(other, ts);
    var rest := ts[3..];
    var k := if other.id <= 0 then 0 else Min(other.id, |rest|);
    if k > 0 {
      assert rest[..k][0] == other.name;
      assert ParseScores(rest[..k]).None?;
    } else {
      assert ParseRecords(rest).None?;
    }
  }

  /** The stopping scan ends after a header whose next token is neither a
      score nor an id: that header's record is kept with no notes, and
      nothing after it is read. */
  lemma ScanStopsAtUnreadable(ts: seq<string>)
    requires |ts| >= 4 && ParseInt(ts[0]).Some? && ParseInt(ts[2]).Some?
    requires ParseScore(ts[3]).None? && ParseInt(ts[3]).None?
    ensures ScanUntilStuck(ts) == [Student(ParseInt(ts[0]).value, ts[1], [])]
  {
    var rest := ts[3..];
    var count := ParseInt(ts[2]).value;
    var k := if count <= 0 then 0 else Min(count, |rest|);
    if k > 0 {
      assert rest[..k][0] == ts[3];
      assert LeadingScores(rest[..k]) == [];
    } else {
      assert LeadingScores(rest[..k]) == [];
      assert rest[k..] == rest;
      assert ScanUntilStuck(rest) == [];
    }
  }

  /** The stopping scan on the same text reads one line, with `0` for the
      name and no score, then stops: the read returns, but every later line
      is lost to it. */
  lemma EmptyNameStopsScan(other: Student)
    requires IsToken(other.name) && StartsWithPlainLetter(other.name)
    ensures ScanUntilStuck(Tokens(EncodeLine(Student(5, "", [])) + EncodeLine(other)))
         == [Student(5, "0", [])]
  {
    EmptyNameThen(other);
    var ts := ["5", "0"] + LineTokens(other);
    EmptyNameHeader(other, ts);
    ScanStopsAtUnreadable(ts);
  }

}

=== FILE: engine.dfy ===
/** The scan loops of readStudent, updateStudent and deleteStudent written
    as loops over the file's lines, as the C code runs them, and proved to
    compute the operations of module Storage. */
module Engine {
  import opened Optional
  import opened StudentRecord
  import opened RecordList
  import opened Storage

  /** One iteration's decoding: initStudent on the id and name, then addNote
      once per score on the line. */
  method DecodeLine(line: Student) returns (s: Student)
    ensures s == FromLine(line)
  {
    s := InitStudent(line.id, line.name);
    var k := 0;
    while k < |line.notes|
      invariant 0 <= k <= |line.notes|
      invariant s.id == line.id && s.name == TruncateName(line.name)
      invariant s.notes == line.notes[..Min(k, MAX_NOTES)]
    {
      s := AddNote(s, line.notes[k]);
      if k < MAX_NOTES {
        assert line.notes[..k + 1] == line.notes[..k] + [line.notes[k]];
      }
      k := k + 1;
    }
  }

  /** Extending the scanned prefix by one line extends the kept records by
      that line, loaded, unless its id matches. */
  lemma RemoveStep(lines: seq<Student>, i: nat, id: int)
    requires i < |lines|
    ensures RemoveMatching(LoadAll(lines[..i + 1]), id)
         == RemoveMatching(LoadAll(lines[..i]), id)
            + (if lines[i].id == id then [] else [FromLine(lines[i])])
  {
    assert lines[..i + 1] == lines[..i] + [lines[i]];
    LoadAllAppend(lines[..i], lines[i]);
    RemoveDistributes(LoadAll(lines[..i]), [FromLine(lines[i])], id);
  }

  /** Extending the scanned prefix by one line finds the id exactly when it
      was found before or that line carries it. */
  lemma HasIdStep(lines: seq<Student>, i: nat, id: int)
    requires i < |lines|
    ensures HasId(lines[..i + 1], id) == (HasId(lines[..i], id) || lines[i].id == id)
  {
    assert lines[..i + 1][i] == lines[i];
    assert forall j :: 0 <= j < i ==> lines[..i + 1][j] == lines[..i][j];
  }

  /** The line the scan stops at is what readStudent returns. */
  lemma ReadStopsAt(rs: seq<Student>, id: int, i: nat)
    requires i < |rs| && rs[i].id == id
    requires forall j :: 0 <= j < i ==> rs[j].id != id
    ensures Read(Present(rs), id) == Some(FromLine(rs[i]))
  {
    assert HasId(rs, id);
    var r := Read(Present(rs), id);
    var k :| 0 <= k < |rs| && r.value == FromLine(rs[k])
             && forall j :: 0 <= j < k ==> rs[j].id != id;
    assert rs[k].id == id;
    assert k <= i;
  }

  /** readStudent: scan the lines in order and stop at the first whose id
      matches. */
  method ReadStudent(f: FileState, id: int) returns (found: Option<Student>)
    ensures found == Read(f, id)
  {
    if f.Missing? {
      return None;
    }
    var lines := f.records;
    var i := 0;
    while i < |lines|
      invariant 0 <= i <= |lines|
      invariant forall j :: 0 <= j < i ==> lines[j].id != id
    {
      var s := DecodeLine(lines[i]);
      if s.id == id {
        ReadStopsAt(lines, id, i);
        return Some(s);
      }
      i := i + 1;
    }
    return None;
  }

  /** A rewrite that treats every line as updateStudent does is the result of
      Update. */
  lemma UpdateRewrite(f: FileState, updated: Student, found: bool, temp: seq<Student>)
    requires f.Present? && found == HasId(f.records, updated.id)
    requires |temp| == |f.records|
    requires forall j :: 0 <= j < |temp| ==>
               temp[j] == if f.records[j].id == updated.id then updated else FromLine(f.records[j])
    ensures Outcome(found, Present(temp)) == Update(f, updated, true)
  {
    var r := Update(f, updated, true).file.records;
    assert forall j :: 0 <= j < |temp| ==> r[j] == temp[j];
  }

  /** updateStudent: every line is decoded and written to the temporary
      file, the new record taking the place of each matching line. */
  method UpdateStudent(f: FileState, updated: Student, canOpenTemp: bool)
      returns (ok: bool, after: FileState)
    ensures Outcome(ok, after) == Update(f, updated, canOpenTemp)
  {
    if f.Missing? || !canOpenTemp {
      return false, f;
    }
    var lines := f.records;
    var temp: seq<Student> := [];
    var found := false;
    var i := 0;
    while i < |lines|
      invariant 0 <= i <= |lines| && |temp| == i
      invariant forall j :: 0 <= j < i ==>
                  temp[j] == if lines[j].id == updated.id then updated else FromLine(lines[j])
      invariant found == HasId(lines[..i], updated.id)
    {
      var s := DecodeLine(lines[i]);
      HasIdStep(lines, i, updated.id);
      if s.id == updated.id {
        s := updated;
        found := true;
      }
      temp := temp + [s];
      i := i + 1;
    }
    assert lines[..i] == lines;
    UpdateRewrite(f, updated, found, temp);
    return found, Present(temp);
  }

  /** The scan of deleteStudent: every line is decoded, and written to the
      temporary file unless its id matches. */
  method CopyAllBut(lines: seq<Student>, id: int) returns (found: bool, temp: seq<Student>)
    ensures found == HasId(lines, id)
    ensures temp == RemoveMatching(LoadAll(lines), id)
  {
    temp := [];
    found := false;
    var i := 0;
    while i < |lines|
      invariant 0 <= i <= |lines|
      invariant temp == RemoveMatching(LoadAll(lines[..i]), id)
      invariant found == HasId(lines[..i], id)
    {
      var s := DecodeLine(lines[i]);
      RemoveStep(lines, i, id);
      HasIdStep(lines, i, id);
      if s.id == id {
        found := true;
      } else {
        temp := temp + [s];
      }
      i := i + 1;
    }
    assert lines[..i] == lines;
  }

  /** deleteStudent: nothing happens unless the file and the temporary file
      both open; then the file is replaced by the scan's copy. */
  method DeleteStudent(f: FileState, id: int, canOpenTemp: bool)
      returns (ok: bool, after: FileState)
    ensures Outcome(ok, after) == Delete(f, id, canOpenTemp)
  {
    if f.Missing? || !canOpenTemp {
      return false, f;
    }
    var temp;
    ok, temp := CopyAllBut(f.records, id);
    after := Present(temp);
  }

}

=== FILE: lexer.dfy ===
/** How `fscanf` sees the file: a stream of whitespace-separated tokens, line
    breaks being whitespace like any other. `%d`, `%s` and `%f` each skip
    leading whitespace and then read one token. */
module Lexer {

  /** The characters `isspace` accepts: space, tab, line feed, vertical tab,
      form feed and carriage return. */
  predicate IsSpace(c: char) {
    c == ' ' || ('\t' <= c <= '\r')
  }

  /** A non-empty run of non-whitespace characters: what `%s` reads. */
  predicate IsToken(t: string) {
    |t| >= 1 && forall i :: 0 <= i < |t| ==> !IsSpace(t[i])
  }

  /** The longest prefix of `s` that holds no whitespace. */
  function TakeToken(s: string): (t: string)
    ensures t <= s
    ensures forall i :: 0 <= i < |t| ==> !IsSpace(t[i])
    ensures |t| == |s| || IsSpace(s[|t|])
  {
    if s == [] || IsSpace(s[0]) then [] else [s[0]] + TakeToken(s[1..])
  }

  /** The tokens of `s`, in order. */
  function Tokens(s: string): (r: seq<string>)
    ensures IsToken(s) ==> r == [s]
    ensures (forall i :: 0 <= i < |s| ==> IsSpace(s[i])) ==> r == []
    decreases |s|
  {
    if s == [] then []
    else if IsSpace(s[0]) then Tokens(s[1..])
    else
      var t := TakeToken(s);
      assert IsToken(s) ==> |t| == |s| && t == s && s[|t|..] == [];
      [t] + Tokens(s[|t|..])
  }

  /** The token at the head of a string is read in full when whitespace
      follows it. */
  lemma TakeTokenBeforeSpace(t: string, x: string)
    requires IsToken(t) && |x| >= 1 && IsSpace(x[0])
    ensures TakeToken(t + x) == t
  {
    assert forall i :: 0 <= i < |t| ==> (t + x)[i] == t[i];
    assert (t + x)[|t|] == x[0];
  }

  /** A token followed by whitespace contributes exactly itself. */
  lemma TokensAfterToken(t: string, x: string)
    requires IsToken(t) && |x| >= 1 && IsSpace(x[0])
    ensures Tokens(t + x) == [t] + Tokens(x)
  {
    TakeTokenBeforeSpace(t, x);
    assert (t + x)[|t|..] == x;
  }

  /** Every piece is a token: non-empty and free of whitespace. */
  lemma {:induction false} TokensAreTokens(s: string)
    ensures forall k :: 0 <= k < |Tokens(s)| ==> IsToken(Tokens(s)[k])
    decreases |s|
  {
    if s != [] {
      if IsSpace(s[0]) {
        TokensAreTokens(s[1..]);
      } else {
        TokensAreTokens(s[|TakeToken(s)|..]);
      }
    }
  }

  /** Whitespace contributes no token. */
  lemma TokensAfterSpace(c: char, x: string)
    requires IsSpace(c)
    ensures Tokens([c] + x) == Tokens(x)
  {
    assert ([c] + x)[1..] == x;
  }

  /** Whitespace after a string does not change the token at its head. */
  lemma {:induction false} TakeTokenBeforeMore(x: string, y: string)
    requires |y| >= 1 && IsSpace(y[0])
    ensures TakeToken(x + y) == TakeToken(x)
    decreases |x|
  {
    if x == [] {
      assert (x + y)[0] == y[0];
    } else if !IsSpace(x[0]) {
      assert (x + y)[1..] == x[1..] + y;
      TakeTokenBeforeMore(x[1..], y);
    }
  }

  /** A trailing line feed adds no token. */
  lemma {:induction false} TokensTrailingLineFeed(x: string)
    ensures Tokens(x + "\n") == Tokens(x)
    decreases |x|
  {
    if x == [] {
      assert x + "\n" == ['\n'] + [];
      TokensAfterSpace('\n', []);
    } else if IsSpace(x[0]) {
      assert (x + "\n")[1..] == x[1..] + "\n";
      TokensTrailingLineFeed(x[1..]);
    } else {
      var t := TakeToken(x);
      TakeTokenBeforeMore(x, "\n");
      assert (x + "\n")[|t|..] == x[|t|..] + "\n";
      TokensTrailingLineFeed(x[|t|..]);
    }
  }

  /** Each token preceded by one space, as `" %.2f"` writes the scores. */
  function Spaced(ts: seq<string>): string {
    if ts == [] then "" else " " + ts[0] + Spaced(ts[1..])
  }

  /** One line: the tokens separated by single spaces, then a line feed. */
  function JoinLine(ts: seq<string>): string
    requires |ts| >= 1
  {
    ts[0] + Spaced(ts[1..]) + "\n"
  }

  lemma SpacedUnfold(ts: seq<string>, rest: string)
    requires |ts| >= 1
    ensures Spaced(ts) + "\n" + rest == [' '] + (ts[0] + (Spaced(ts[1..]) + "\n" + rest))
  {
  }

  lemma SpacedStartsWithSpace(ts: seq<string>, rest: string)
    ensures |Spaced(ts) + "\n" + rest| >= 1 && IsSpace((Spaced(ts) + "\n" + rest)[0])
  {
  }

  lemma SpaceThenToken(t: string, x: string)
    requires IsToken(t) && |x| >= 1 && IsSpace(x[0])
    ensures Tokens([' '] + (t + x)) == [t] + Tokens(x)
  {
    TokensAfterSpace(' ', t + x);
    TokensAfterToken(t, x);
  }

  lemma {:induction false} SpacedTokens(ts: seq<string>, rest: string)
    requires forall i :: 0 <= i < |ts| ==> IsToken(ts[i])
    ensures Tokens(Spaced(ts) + "\n" + rest) == ts + Tokens(rest)
  {
    if ts == [] {
      SpacedNil(rest);
    } else {
      SpacedTokens(ts[1..], rest);
      SpacedCons(ts, rest);
    }
  }

  lemma SpacedNil(rest: string)
    ensures Tokens(Spaced([]) + "\n" + rest) == Tokens(rest)
  {
    assert Spaced([]) + "\n" + rest == ['\n'] + rest;
    TokensAfterSpace('\n', rest);
  }

  /** One step of SpacedTokens: the head token, then whatever the rest gives. */
  lemma SpacedCons(ts: seq<string>, rest: string)
    requires |ts| >= 1 && IsToken(ts[0])
    requires Tokens(Spaced(ts[1..]) + "\n" + rest) == ts[1..] + Tokens(rest)
    ensures Tokens(Spaced(ts) + "\n" + rest) == ts + Tokens(rest)
  {
    var x := Spaced(ts[1..]) + "\n" + rest;
    calc {
      Tokens(Spaced(ts) + "\n" + rest);
      { SpacedUnfold(ts, rest); }
      Tokens([' '] + (ts[0] + x));
      { SpacedStartsWithSpace(ts[1..], rest); SpaceThenToken(ts[0], x); }
      [ts[0]] + Tokens(x);
      [ts[0]] + (ts[1..] + Tokens(rest));
      { AppendAssoc([ts[0]], ts[1..], Tokens(rest)); assert [ts[0]] + ts[1..] == ts; }
      ts + Tokens(rest);
    }
  }

  /** Splitting a written line, followed by anything, gives back the line's
      tokens first. */
  lemma JoinLineTokens(ts: seq<string>, rest: string)
    requires |ts| >= 1 && forall i :: 0 <= i < |ts| ==> IsToken(ts[i])
    ensures Tokens(JoinLine(ts) + rest) == ts + Tokens(rest)
  {
    var x := Spaced(ts[1..]) + "\n" + rest;
    calc {
      Tokens(JoinLine(ts) + rest);
      { JoinLineUnfold(ts, rest); }
      Tokens(ts[0] + x);
      { SpacedStartsWithSpace(ts[1..], rest); TokensAfterToken(ts[0], x); }
      [ts[0]] + Tokens(x);
      { SpacedTokens(ts[1..], rest); }
      [ts[0]] + (ts[1..] + Tokens(rest));
      { AppendAssoc([ts[0]], ts[1..], Tokens(rest)); assert [ts[0]] + ts[1..] == ts; }
      ts + Tokens(rest);
    }
  }

  lemma JoinLineUnfold(ts: seq<string>, rest: string)
    requires |ts| >= 1
    ensures JoinLine(ts) + rest == ts[0] + (Spaced(ts[1..]) + "\n" + rest)
  {
  }

  /** Lines of tokens, each joined by JoinLine, one after the other. */
  function Render(ls: seq<seq<string>>): (r: string)
    requires forall i :: 0 <= i < |ls| ==> |ls[i]| >= 1
    ensures r == [] <==> ls == []
    ensures ls != [] ==> r[|r| - 1] == '\n'
  {
    if ls == [] then "" else JoinLine(ls[0]) + Render(ls[1..])
  }

  /** All tokens of all lines, in order. */
  function Flatten(ls: seq<seq<string>>): seq<string> {
    if ls == [] then [] else ls[0] + Flatten(ls[1..])
  }

  /** Lines that are non-empty and made of tokens. */
  predicate WellFormedLines(ls: seq<seq<string>>) {
    forall i :: 0 <= i < |ls| ==> |ls[i]| >= 1 && forall k :: 0 <= k < |ls[i]| ==> IsToken(ls[i][k])
  }

  lemma RenderUnfold(ls: seq<seq<string>>, rest: string)
    requires |ls| >= 1 && forall i :: 0 <= i < |ls| ==> |ls[i]| >= 1
    ensures Render(ls) + rest == JoinLine(ls[0]) + (Render(ls[1..]) + rest)
  {
  }

  /** Splitting rendered lines, followed by anything, gives back all their
      tokens first. */
  lemma {:induction false} RenderTokens(ls: seq<seq<string>>, rest: string)
    requires WellFormedLines(ls)
    ensures Tokens(Render(ls) + rest) == Flatten(ls) + Tokens(rest)
  {
    if ls == [] {
      assert Render(ls) + rest == rest;
      assert Flatten(ls) + Tokens(rest) == Tokens(rest);
    } else {
      RenderTokens(ls[1..], rest);
      RenderCons(ls, rest);
    }
  }

  /** One step of RenderTokens: the first line's tokens, then the rest. */
  lemma RenderCons(ls: seq<seq<string>>, rest: string)
    requires WellFormedLines(ls) && |ls| >= 1
    requires Tokens(Render(ls[1..]) + rest) == Flatten(ls[1..]) + Tokens(rest)
    ensures Tokens(Render(ls) + rest) == Flatten(ls) + Tokens(rest)
  {
    var tail := Render(ls[1..]) + rest;
    assert forall k :: 0 <= k < |ls[0]| ==> IsToken(ls[0][k]);
    calc {
      Tokens(Render(ls) + rest);
      { RenderUnfold(ls, rest); }
      Tokens(JoinLine(ls[0]) + tail);
      { JoinLineTokens(ls[0], tail); }
      ls[0] + Tokens(tail);
      ls[0] + (Flatten(ls[1..]) + Tokens(rest));
      { AppendAssoc(ls[0], Flatten(ls[1..]), Tokens(rest)); }
      (ls[0] + Flatten(ls[1..])) + Tokens(rest);
    }
  }

  lemma AppendAssoc<T>(a: seq<T>, b: seq<T>, c: seq<T>)
    ensures a + (b + c) == (a + b) + c
  {
  }

  /** Rendering one more line appends its text. */
  lemma {:induction false} RenderAppend(ls: seq<seq<string>>, l: seq<string>)
    requires |l| >= 1 && forall i :: 0 <= i < |ls| ==> |ls[i]| >= 1
    ensures Render(ls + [l]) == Render(ls) + JoinLine(l)
  {
    if ls == [] {
      assert [l][1..] == [];
    } else {
      assert (ls + [l])[1..] == ls[1..] + [l];
      RenderAppend(ls[1..], l);
    }
  }

}

=== FILE: linereader.dfy ===
/** A reader that takes the file one line at a time: a line in the layout
    createStudent writes is read as its record, and any other line is
    skipped, so one unreadable line neither stops the read nor swallows the
    lines after it. The scan loop of with_txt/student.c reads the file as one
    token stream instead, where an empty name shifts every later field. */
module LineReader {
  import opened Optional
  import opened StudentRecord
  import opened Numerals
  import opened Lexer
  import opened Codec

  /** The text before the first line feed. */
  function TakeLine(s: string): (l: string)
    ensures l <= s
    ensures forall i :: 0 <= i < |l| ==> l[i] != '\n'
    ensures |l| == |s| || s[|l|] == '\n'
  {
    if s == [] || s[0] == '\n' then [] else [s[0]] + TakeLine(s[1..])
  }

  /** The text after the first line feed; nothing when there is none. */
  function AfterLine(s: string): (r: string)
    ensures s != [] ==> |r| < |s|
  {
    var l := TakeLine(s);
    if |l| < |s| then s[|l| + 1..] else []
  }

  /** One line read as a record: exactly the three header fields and as
      many scores as the count says, each of them readable. */
  function ReadLine(line: string): (r: Option<Student>)
    ensures r.Some? ==> |Tokens(line)| == 3 + |r.value.notes|
    ensures r.Some? ==> ParseInt(Tokens(line)[0]) == Some(r.value.id)
    ensures r.Some? ==> r.value.name == Tokens(line)[1] && IsToken(r.value.name)
  {
    var ts := Tokens(line);
    TokensAreTokens(line);
    if |ts| < 3 then None
    else
      match (ParseInt(ts[0]), ParseInt(ts[2]), ParseScores(ts[3..]))
      case (Some(id), Some(count), Some(notes)) =>
        if count == |notes| then Some(Student(id, ts[1], notes)) else None
      case _ => None
  }

  /** The records of every readable line, in file order. */
  function ReadLines(s: string): (r: seq<Student>)
    ensures Writable(r)
    ensures |r| <= |s|
    decreases |s|
  {
    if s == [] then []
    else
      var rest := ReadLines(AfterLine(s));
      match ReadLine(TakeLine(s))
      case Some(x) => [x] + rest
      case None => rest
  }

  /** A line feed ends the line in front of it. */
  lemma {:induction false} SplitAtLineFeed(body: string, rest: string)
    requires forall i :: 0 <= i < |body| ==> body[i] != '\n'
    ensures TakeLine(body + "\n" + rest) == body
    ensures AfterLine(body + "\n" + rest) == rest
    decreases |body|
  {
    var s := body + "\n" + rest;
    if body == [] {
      assert s[0] == '\n';
      assert s[1..] == rest;
    } else {
      assert s[0] == body[0];
      assert s[1..] == body[1..] + "\n" + rest;
      SplitAtLineFeed(body[1..], rest);
      assert [body[0]] + body[1..] == body;
    }
  }

  /** Reading a text line by line: its first line, then the text after the
      line feed. */
  lemma ReadLinesStep(body: string, rest: string)
    requires forall i :: 0 <= i < |body| ==> body[i] != '\n'
    ensures ReadLines(body + "\n" + rest)
         == match ReadLine(body)
            case Some(x) => [x] + ReadLines(rest)
            case None => ReadLines(rest)
  {
    SplitAtLineFeed(body, rest);
  }

  /** The tokens joined by single spaces hold no line feed. */
  lemma {:induction false} SpacedHasNoLineFeed(ts: seq<string>)
    requires forall k :: 0 <= k < |ts| ==> IsToken(ts[k])
    ensures forall i :: 0 <= i < |Spaced(ts)| ==> Spaced(ts)[i] != '\n'
  {
    if ts != [] {
      SpacedHasNoLineFeed(ts[1..]);
      var head := " " + ts[0];
      assert Spaced(ts) == head + Spaced(ts[1..]);
      forall i | 0 <= i < |Spaced(ts)| ensures Spaced(ts)[i] != '\n' {
        if i == 0 {
        } else if i < |head| {
          assert Spaced(ts)[i] == ts[0][i - 1];
        } else {
          assert Spaced(ts)[i] == Spaced(ts[1..])[i - |head|];
        }
      }
    }
  }

  /** A line written for a one-token name is its text up to the line feed
      it ends with. */
  lemma LineBody(s: Student, rest: string)
    requires IsToken(s.name)
    ensures var body := EncodeLine(s)[..|EncodeLine(s)| - 1];
            && EncodeLine(s) + rest == body + "\n" + rest
            && (forall i :: 0 <= i < |body| ==> body[i] != '\n')
            && TakeLine(EncodeLine(s) + rest) == body
            && AfterLine(EncodeLine(s) + rest) == rest
            && Tokens(body) == LineTokens(s)
  {
    var ts := LineTokens(s);
    LineTokensAreTokens(s);
    var body := ts[0] + Spaced(ts[1..]);
    assert EncodeLine(s) == body + "\n";
    assert EncodeLine(s)[..|EncodeLine(s)| - 1] == body;
    SpacedHasNoLineFeed(ts[1..]);
    forall i | 0 <= i < |body| ensures body[i] != '\n' {
      if i < |ts[0]| {
        assert body[i] == ts[0][i];
      } else {
        assert body[i] == Spaced(ts[1..])[i - |ts[0]|];
      }
    }
    SplitAtLineFeed(body, rest);
    assert EncodeLine(s) + rest == body + "\n" + rest;
    JoinLineTokens(ts, "");
    assert JoinLine(ts) + "" == body + "\n";
    assert Tokens("") == [];
    assert ts + [] == ts;
    TokensTrailingLineFeed(body);
  }

  /** A line written for a one-token name is read as that record. */
  lemma ReadWrittenLine(s: Student)
    requires IsToken(s.name)
    ensures ReadLine(EncodeLine(s)[..|EncodeLine(s)| - 1]) == Some(s)
  {
    LineBody(s, "");
    var ts := LineTokens(s);
    IntRoundTrip(s.id);
    IntRoundTrip(|s.notes|);
    ScoresRoundTrip(s.notes);
    assert ts[3..] == ScoreTokens(s.notes);
  }

  /** The text of a file with one line more in front. */
  lemma EncodeFileCons(rs: seq<Student>)
    requires rs != []
    ensures EncodeFile(rs) == EncodeLine(rs[0]) + EncodeFile(rs[1..])
  {
    assert Layout(rs)[1..] == Layout(rs[1..]);
    RenderUnfold(Layout(rs), "");
    assert Render(Layout(rs)) + "" == Render(Layout(rs));
    assert Render(Layout(rs[1..])) + "" == Render(Layout(rs[1..]));
  }

  /** Reading a written file line by line: its first record, then the
      records of the lines after it. */
  lemma ReadLinesCons(rs: seq<Student>)
    requires rs != [] && IsToken(rs[0].name)
    ensures ReadLines(EncodeFile(rs)) == [rs[0]] + ReadLines(EncodeFile(rs[1..]))
  {
    var tail := EncodeFile(rs[1..]);
    var line := EncodeLine(rs[0]);
    var body := line[..|line| - 1];
    EncodeFileCons(rs);
    LineBody(rs[0], tail);
    ReadWrittenLine(rs[0]);
    ReadLinesStep(body, tail);
  }

  lemma WritableTail(rs: seq<Student>)
    requires rs != [] && Writable(rs)
    ensures IsToken(rs[0].name) && Writable(rs[1..])
  {
    forall i | 0 <= i < |rs[1..]| ensures IsToken(rs[1..][i].name) {
      assert rs[1..][i] == rs[i + 1];
    }
  }

  /** Every file the operations write, with one-token names, is read back
      line by line as exactly its records. */
  lemma {:induction false} ReadLinesRoundTrip(rs: seq<Student>)
    requires Writable(rs)
    ensures ReadLines(EncodeFile(rs)) == rs
  {
    if rs != [] {
      WritableTail(rs);
      ReadLinesCons(rs);
      ReadLinesRoundTrip(rs[1..]);
      assert [rs[0]] + rs[1..] == rs;
    }
  }

  /** On such files the line reader and the scan loop as written agree. */
  lemma ReadersAgree(rs: seq<Student>)
    requires Writable(rs)
    ensures DecodeFile(EncodeFile(rs)) == Some(ReadLines(EncodeFile(rs)))
  {
    FileRoundTrip(rs);
    ReadLinesRoundTrip(rs);
  }

  /** The line `5  0` written for an empty name has two fields and is
      skipped, whatever text follows it. */
  lemma EmptyNameLineSkipped(text: string)
    ensures ReadLines(EncodeLine(Student(5, "", [])) + text) == ReadLines(text)
  {
    EmptyNameLine();
    assert "5  0\n" + text == "5  0" + "\n" + text;
    ReadLinesStep("5  0", text);
    EmptyNameTokens("");
    assert "5  0\n" + "" == "5  0" + "\n";
    assert Tokens("") == [];
    TokensTrailingLineFeed("5  0");
    assert ReadLine("5  0") == None;
  }

  /** So every line of a written file after it is still read. */
  lemma EmptyNameSkipped(rs: seq<Student>)
    requires Writable(rs)
    ensures ReadLines(EncodeLine(Student(5, "", [])) + EncodeFile(rs)) == rs
  {
    EmptyNameLineSkipped(EncodeFile(rs));
    ReadLinesRoundTrip(rs);
  }

  /** A single written line is read as its record. */
  lemma ReadOneLine(s: Student)
    requires IsToken(s.name)
    ensures ReadLines(EncodeLine(s)) == [s]
  {
    var line := EncodeLine(s);
    LineBody(s, "");
    assert line + "" == line;
    ReadWrittenLine(s);
    ReadLinesStep(line[..|line| - 1], "");
    assert ReadLines("") == [];
  }

  /** The input on which the scan loop never ends: after the empty-name
      line, the line for any one-token name, such as Alice's, is read. */
  lemma LineAfterEmptyName(other: Student)
    requires IsToken(other.name)
    ensures ReadLines(EncodeLine(Student(5, "", [])) + EncodeLine(other)) == [other]
  {
    EmptyNameLineSkipped(EncodeLine(other));
    ReadOneLine(other);
  }

  lemma AliceAfterEmptyName()
    ensures ReadLines(EncodeLine(Student(5, "", [])) + EncodeLine(Student(2, "Alice", [])))
         == [Student(2, "Alice", [])]
  {
    var alice := Student(2, "Alice", []);
    assert IsToken(alice.name);
    LineAfterEmptyName(alice);
  }
}

=== FILE: numerals.dfy ===
/** The number formats of the record line: `%d` for the id and the score
    count, `%.2f` for a score. Scores are integer hundredths, so the
    two-decimal text is exact. */
module Numerals {
  import opened Optional

  predicate IsDigit(c: char) {
    '0' <= c <= '9'
  }

  function DigitChar(d: nat): (c: char)
    requires d < 10
    ensures IsDigit(c) && DigitValue(c) == d
  {
    (('0' as int) + d) as char
  }

  function DigitValue(c: char): nat
    requires IsDigit(c)
  {
    (c as int) - ('0' as int)
  }

  /** Decimal digits of n, most significant first, without leading zeros. */
  function NatToString(n: nat): (r: string)
    ensures |r| >= 1
    ensures forall i :: 0 <= i < |r| ==> IsDigit(r[i])
    decreases n
  {
    if n < 10 then [DigitChar(n)] else NatToString(n / 10) + [DigitChar(n % 10)]
  }

  /** The value of a non-empty run of decimal digits; None for anything else. */
  function ParseDigits(s: string): (r: Option<nat>)
    ensures r.Some? <==> |s| >= 1 && forall i :: 0 <= i < |s| ==> IsDigit(s[i])
    decreases |s|
  {
    if |s| == 0 || !IsDigit(s[|s| - 1]) then None
    else if |s| == 1 then Some(DigitValue(s[0]))
    else
      match ParseDigits(s[..|s| - 1])
      case None => None
      case Some(v) => Some(10 * v + DigitValue(s[|s| - 1]))
  }

  lemma {:induction false} NatRoundTrip(n: nat)
    ensures ParseDigits(NatToString(n)) == Some(n)
    decreases n
  {
    if n >= 10 {
      var s := NatToString(n);
      NatRoundTrip(n / 10);
      assert s[..|s| - 1] == NatToString(n / 10);
    }
  }

  /** `%d` output. */
  function IntToString(i: int): (r: string)
    ensures |r| >= 1
    ensures forall k :: 0 <= k < |r| ==> IsDigit(r[k]) || r[k] == '-'
    ensures forall k :: 1 <= k < |r| ==> IsDigit(r[k])
    ensures r[0] == '-' <==> i < 0
  {
    if i < 0 then "-" + NatToString(-i) else NatToString(i)
  }

  /** A non-empty run of decimal digits. */
  predicate AllDigits(s: string) {
    |s| >= 1 && forall i :: 0 <= i < |s| ==> IsDigit(s[i])
  }

  /** `%d` input on one whitespace-free token: an optional sign followed by
      decimal digits. */
  function ParseInt(t: string): (r: Option<int>)
    ensures r.Some? <==> AllDigits(t) || (|t| >= 1 && (t[0] == '-' || t[0] == '+') && AllDigits(t[1..]))
    ensures r.Some? && t[0] == '-' ==> r.value <= 0
    ensures r.Some? && t[0] != '-' ==> r.value >= 0
  {
    if |t| >= 1 && (t[0] == '-' || t[0] == '+') then
      match ParseDigits(t[1..])
      case None => None
      case Some(v) => var x: int := v; Some(if t[0] == '-' then -x else x)
    else
      match ParseDigits(t)
      case None => None
      case Some(v) => Some(v)
  }

  lemma IntRoundTrip(i: int)
    ensures ParseInt(IntToString(i)) == Some(i)
  {
    if i < 0 {
      NatRoundTrip(-i);
      NegativeRoundTrip(NatToString(-i), -i);
    } else {
      NatRoundTrip(i);
      UnsignedInt(NatToString(i), i);
    }
  }

  lemma NegativeRoundTrip(ds: string, n: nat)
    requires ParseDigits(ds) == Some(n)
    ensures ParseInt("-" + ds) == Some(-(n as int))
  {
    assert ("-" + ds)[1..] == ds;
  }

  lemma UnsignedInt(ds: string, n: nat)
    requires ParseDigits(ds) == Some(n)
    ensures ParseInt(ds) == Some(n)
  {
    assert IsDigit(ds[0]);
  }

  /** `%.2f` output of a score held in hundredths: sign, whole part, point,
      two fraction digits (-50 is "-0.50"). */
  function ScoreToString(v: int): (r: string)
    ensures |r| >= 4 && r[|r| - 3] == '.'
    ensures forall k :: 0 <= k < |r| ==> IsDigit(r[k]) || r[k] == '-' || r[k] == '.'
  {
    var m := if v < 0 then -v else v;
    (if v < 0 then "-" else "") + CentiText(m / 100, m % 100 / 10, m % 100 % 10)
  }

  /** Whole part, point, tenths digit, hundredths digit. */
  function CentiText(w: nat, a: nat, b: nat): (r: string)
    requires a < 10 && b < 10
    ensures |r| >= 4 && r[|r| - 3] == '.' && IsDigit(r[0])
    ensures forall k :: 0 <= k < |r| ==> IsDigit(r[k]) || r[k] == '.'
  {
    NatToString(w) + "." + [DigitChar(a), DigitChar(b)]
  }

  /** `%f` input on one token, for the spellings that are exact in
      hundredths: an optional sign, a whole part, and an optional point
      followed by at most two digits. */
  function ParseScore(t: string): (r: Option<int>)
    ensures r.Some? ==> |t| >= 1
    ensures r.Some? && t[0] == '-' ==> r.value <= 0
    ensures r.Some? && t[0] != '-' ==> r.value >= 0
  {
    if |t| >= 1 && (t[0] == '-' || t[0] == '+') then
      match ParseUnsignedScore(t[1..])
      case None => None
      case Some(v) => var x: int := v; Some(if t[0] == '-' then -x else x)
    else
      match ParseUnsignedScore(t)
      case None => None
      case Some(v) => Some(v)
  }

  function ParseUnsignedScore(u: string): Option<nat> {
    var n := |u|;
    if n >= 3 && u[n - 3] == '.' then
      match (ParseDigits(u[..n - 3]), ParseDigits(u[n - 2..]))
      case (Some(w), Some(f)) => Some(100 * w + f)
      case _ => None
    else if n >= 2 && u[n - 2] == '.' then
      match (ParseDigits(u[..n - 2]), ParseDigits(u[n - 1..]))
      case (Some(w), Some(f)) => Some(100 * w + 10 * f)
      case _ => None
    else if n >= 1 && u[n - 1] == '.' then
      match ParseDigits(u[..n - 1])
      case Some(w) => Some(100 * w)
      case None => None
    else
      match ParseDigits(u)
      case Some(w) => Some(100 * w)
      case None => None
  }

  /** A run of digits with no point is read by `%f` as that many units. */
  lemma WholeScore(u: string)
    requires AllDigits(u)
    ensures ParseUnsignedScore(u) == Some(100 * ParseDigits(u).value)
  {
    var n := |u|;
    assert n >= 3 ==> IsDigit(u[n - 3]);
    assert n >= 2 ==> IsDigit(u[n - 2]);
    assert IsDigit(u[n - 1]);
  }

  /** Every spelling `%f` reads here without a sign starts with a digit. */
  lemma UnsignedScoreStartsWithDigit(u: string)
    requires ParseUnsignedScore(u).Some?
    ensures |u| >= 1 && IsDigit(u[0])
  {
    var n := |u|;
    if n >= 3 && u[n - 3] == '.' {
      assert u[..n - 3][0] == u[0];
    } else if n >= 2 && u[n - 2] == '.' {
      assert u[..n - 2][0] == u[0];
    } else if n >= 1 && u[n - 1] == '.' {
      assert u[..n - 1][0] == u[0];
    }
  }

  /** A token whose first character is an ASCII letter other than the `i` of
      `inf` and `infinity` and the `n` of `nan`. The C library's `%d` and
      `%f` both reject it at that character and consume nothing. */
  predicate StartsWithPlainLetter(t: string) {
    && |t| >= 1
    && ('a' <= t[0] <= 'z' || 'A' <= t[0] <= 'Z')
    && t[0] != 'i' && t[0] != 'I' && t[0] != 'n' && t[0] != 'N'
  }

  /** Such a token is neither an integer nor a score. */
  lemma PlainLetterIsNotNumber(t: string)
    requires StartsWithPlainLetter(t)
    ensures ParseInt(t).None? && ParseScore(t).None?
  {
    if ParseUnsignedScore(t).Some? {
      UnsignedScoreStartsWithDigit(t);
    }
  }

  /** Any token `%d` reads is read by `%f` as the same number of units. */
  lemma IntegerScore(t: string)
    requires ParseInt(t).Some?
    ensures ParseScore(t) == Some(100 * ParseInt(t).value)
  {
    if |t| >= 1 && (t[0] == '-' || t[0] == '+') {
      WholeScore(t[1..]);
    } else {
      WholeScore(t);
    }
  }

  lemma TwoDigits(a: nat, b: nat)
    requires a < 10 && b < 10
    ensures ParseDigits([DigitChar(a), DigitChar(b)]) == Some(10 * a + b)
  {
    var s := [DigitChar(a), DigitChar(b)];
    assert s[..1] == [DigitChar(a)];
  }

  lemma UnsignedScoreParts(ws: string, w: nat, a: nat, b: nat)
    requires ParseDigits(ws) == Some(w) && a < 10 && b < 10
    ensures ParseUnsignedScore(ws + "." + [DigitChar(a), DigitChar(b)]) == Some(100 * w + 10 * a + b)
  {
    var u := ws + "." + [DigitChar(a), DigitChar(b)];
    var n := |u|;
    assert n == |ws| + 3;
    assert u[n - 3] == '.';
    assert u[..n - 3] == ws;
    assert u[n - 2..] == [DigitChar(a), DigitChar(b)];
    TwoDigits(a, b);
    assert ParseDigits(u[..n - 3]) == Some(w);
  }

  lemma CentiTextRoundTrip(w: nat, a: nat, b: nat)
    requires a < 10 && b < 10
    ensures ParseUnsignedScore(CentiText(w, a, b)) == Some(100 * w + 10 * a + b)
  {
    NatRoundTrip(w);
    UnsignedScoreParts(NatToString(w), w, a, b);
  }

  /** The whole part and the two fraction digits put back together. */
  lemma CentiSplit(m: nat)
    ensures m % 100 / 10 < 10 && m % 100 % 10 < 10
    ensures m == 100 * (m / 100) + 10 * (m % 100 / 10) + m % 100 % 10
  {
    var r := m % 100;
    assert m == 100 * (m / 100) + r;
    assert r == 10 * (r / 10) + r % 10;
  }

  lemma SignedScore(sign: string, u: string, m: nat)
    requires sign == "" || sign == "-"
    requires |u| >= 1 && IsDigit(u[0]) && ParseUnsignedScore(u) == Some(m)
    ensures ParseScore(sign + u) == Some(if sign == "-" then -(m as int) else m)
  {
    if sign == "-" {
      assert (sign + u)[1..] == u;
    } else {
      assert sign + u == u;
    }
  }

  /** Reading back a written score gives the score. */
  lemma ScoreRoundTrip(v: int)
    ensures ParseScore(ScoreToString(v)) == Some(v)
  {
    var m := if v < 0 then -v else v;
    CentiSplit(m);
    var u := CentiText(m / 100, m % 100 / 10, m % 100 % 10);
    CentiTextRoundTrip(m / 100, m % 100 / 10, m % 100 % 10);
    SignedScore(if v < 0 then "-" else "", u, m);
  }

}

=== FILE: option.dfy ===
/** The optional value used wherever the C code reports "found / not found"
    or a parse that may fail. */
module Optional {

  datatype Option<+T> = None | Some(value: T)

  /** The values in front of the first None, in order. */
  function LeadingValues<T>(vs: seq<Option<T>>): (r: seq<T>)
    ensures |r| <= |vs|
    ensures forall i :: 0 <= i < |r| ==> vs[i] == Some(r[i])
    ensures |r| < |vs| ==> vs[|r|].None?
  {
    if vs == [] then []
    else
      match vs[0]
      case None => []
      case Some(v) =>
        var tail := LeadingValues(vs[1..]);
        assert forall i :: 1 <= i < |vs| ==> vs[i] == vs[1..][i - 1];
        [v] + tail
  }

}

=== FILE: records.dfy ===
/** The file seen as a sequence of records, one per line, and the three list
    transformations the storage engine applies to it: first-match search
    (readStudent), whole-record replacement of every match (updateStudent)
    and removal of every match (deleteStudent). */
module RecordList {
  import opened Optional
  import opened StudentRecord

  /** Whether some record carries the id. */
  predicate HasId(rs: seq<Student>, id: int) {
    exists i :: 0 <= i < |rs| && rs[i].id == id
  }

  /** Number of records carrying the id. */
  function CountId(rs: seq<Student>, id: int): nat {
    if rs == [] then 0 else (if rs[0].id == id then 1 else 0) + CountId(rs[1..], id)
  }

  /** The first record, in file order, whose id matches; None when there is none. */
  function FirstMatch(rs: seq<Student>, id: int): (r: Option<Student>)
    ensures r.None? <==> !HasId(rs, id)
    ensures r.Some? ==> exists i :: 0 <= i < |rs| && rs[i] == r.value && r.value.id == id
                                   && forall j :: 0 <= j < i ==> rs[j].id != id
  {
    if rs == [] then None
    else if rs[0].id == id then Some(rs[0])
    else
      var r := FirstMatch(rs[1..], id);
      assert forall i :: 0 < i < |rs| ==> rs[i] == rs[1..][i - 1];
      r
  }

  /** Every record whose id is that of `s` becomes `s` as a whole; every other
      record is kept; the number and order of records do not change. */
  function ReplaceMatching(rs: seq<Student>, s: Student): (r: seq<Student>)
    ensures |r| == |rs|
    ensures forall i :: 0 <= i < |rs| ==> r[i] == (if rs[i].id == s.id then s else rs[i])
  {
    if rs == [] then []
    else [if rs[0].id == s.id then s else rs[0]] + ReplaceMatching(rs[1..], s)
  }

  /** The records whose id differs from `id`, in their original order. */
  function RemoveMatching(rs: seq<Student>, id: int): (r: seq<Student>)
    ensures |r| == |rs| - CountId(rs, id)
    ensures forall i :: 0 <= i < |r| ==> r[i].id != id
  {
    if rs == [] then []
    else if rs[0].id == id then RemoveMatching(rs[1..], id)
    else [rs[0]] + RemoveMatching(rs[1..], id)
  }

  /** Removal keeps exactly the records with another id, each as many times as
      it occurs, and drops every record with the id. */
  lemma {:induction false} RemoveContents(rs: seq<Student>, id: int)
    ensures forall x :: x in RemoveMatching(rs, id) <==> x in rs && x.id != id
    ensures forall x :: multiset(RemoveMatching(rs, id))[x]
                        == if x.id == id then 0 else multiset(rs)[x]
  {
    if rs != [] {
      RemoveContents(rs[1..], id);
      assert rs == [rs[0]] + rs[1..];
      assert multiset(rs) == multiset([rs[0]]) + multiset(rs[1..]);
    }
  }

  lemma {:induction false} CountIdPositive(rs: seq<Student>, id: int)
    ensures CountId(rs, id) > 0 <==> HasId(rs, id)
  {
    if rs != [] {
      CountIdPositive(rs[1..], id);
      if HasId(rs[1..], id) {
        var i :| 0 <= i < |rs[1..]| && rs[1..][i].id == id;
        assert rs[i + 1].id == id;
      }
      if HasId(rs, id) && rs[0].id != id {
        var i :| 0 <= i < |rs| && rs[i].id == id;
        assert rs[1..][i - 1].id == id;
      }
    }
  }

  /** Removal drops a record exactly when some record carries the id: this is
      the found flag deleteStudent returns. */
  lemma RemoveShrinksIffFound(rs: seq<Student>, id: int)
    ensures |RemoveMatching(rs, id)| < |rs| <==> HasId(rs, id)
    ensures !HasId(rs, id) ==> RemoveMatching(rs, id) == rs
  {
    CountIdPositive(rs, id);
    if !HasId(rs, id) {
      RemoveNothing(rs, id);
    }
  }

  lemma {:induction false} RemoveNothing(rs: seq<Student>, id: int)
    requires !HasId(rs, id)
    ensures RemoveMatching(rs, id) == rs
  {
    if rs != [] {
      assert forall i :: 0 <= i < |rs[1..]| ==> rs[1..][i].id == rs[i + 1].id;
      RemoveNothing(rs[1..], id);
      assert rs == [rs[0]] + rs[1..];
    }
  }

  /** Removal works line by line: removing from a concatenation is the
      concatenation of the removals, so the kept records keep their order. */
  lemma {:induction false} RemoveDistributes(a: seq<Student>, b: seq<Student>, id: int)
    ensures RemoveMatching(a + b, id) == RemoveMatching(a, id) + RemoveMatching(b, id)
  {
    if a == [] {
      assert a + b == b;
    } else {
      var ab := a + b;
      assert ab[0] == a[0];
      assert ab[1..] == a[1..] + b;
      RemoveDistributes(a[1..], b, id);
      var ta, tb := RemoveMatching(a[1..], id), RemoveMatching(b, id);
      if a[0].id == id {
        assert RemoveMatching(ab, id) == ta + tb;
        assert RemoveMatching(a, id) == ta;
      } else {
        assert RemoveMatching(ab, id) == [a[0]] + (ta + tb);
        assert RemoveMatching(a, id) == [a[0]] + ta;
        assert [a[0]] + (ta + tb) == ([a[0]] + ta) + tb;
      }
    }
  }

  /** Removing twice removes nothing more. */
  lemma RemoveIdempotent(rs: seq<Student>, id: int)
    ensures RemoveMatching(RemoveMatching(rs, id), id) == RemoveMatching(rs, id)
  {
    RemoveNothing(RemoveMatching(rs, id), id);
  }

  /** After removal no record with the id can be read back, and every other
      id reads back as before. */
  lemma {:induction false} ReadAfterRemove(rs: seq<Student>, id: int, other: int)
    ensures FirstMatch(RemoveMatching(rs, id), id).None?
    ensures other != id ==> FirstMatch(RemoveMatching(rs, id), other) == FirstMatch(rs, other)
  {
    if rs != [] {
      ReadAfterRemove(rs[1..], id, other);
    }
  }

  /** With no matching record, replacement leaves the records as they were. */
  lemma ReplaceNothing(rs: seq<Student>, s: Student)
    requires !HasId(rs, s.id)
    ensures ReplaceMatching(rs, s) == rs
  {
  }

  /** Replacing twice is replacing once. */
  lemma ReplaceIdempotent(rs: seq<Student>, s: Student)
    ensures ReplaceMatching(ReplaceMatching(rs, s), s) == ReplaceMatching(rs, s)
  {
  }

  lemma ReplaceTail(rs: seq<Student>, s: Student)
    requires rs != []
    ensures ReplaceMatching(rs, s)[1..] == ReplaceMatching(rs[1..], s)
  {
    var head := if rs[0].id == s.id then s else rs[0];
    assert ReplaceMatching(rs, s) == [head] + ReplaceMatching(rs[1..], s);
  }

  /** After a replacement that matched, the id reads back as the new record;
      any other id reads back as before. */
  lemma {:induction false} ReadAfterReplace(rs: seq<Student>, s: Student, other: int)
    ensures HasId(rs, s.id) ==> FirstMatch(ReplaceMatching(rs, s), s.id) == Some(s)
    ensures other != s.id ==> FirstMatch(ReplaceMatching(rs, s), other) == FirstMatch(rs, other)
  {
    if rs != [] {
      ReadAfterReplace(rs[1..], s, other);
      ReplaceTail(rs, s);
      if HasId(rs, s.id) && rs[0].id != s.id {
        var i :| 0 <= i < |rs| && rs[i].id == s.id;
        assert rs[1..][i - 1].id == s.id;
      }
    }
  }

  /** Appending never changes what an id already present reads as: an earlier
      record with the same id shadows the new one, because duplicates are not
      checked. A fresh id reads back as the appended record. */
  lemma {:induction false} ReadAfterAppend(rs: seq<Student>, s: Student, id: int)
    ensures FirstMatch(rs + [s], id)
         == if HasId(rs, id) then FirstMatch(rs, id)
            else if s.id == id then Some(s) else None
  {
    if rs != [] {
      assert (rs + [s])[1..] == rs[1..] + [s];
      ReadAfterAppend(rs[1..], s, id);
      if HasId(rs, id) && rs[0].id != id {
        var i :| 0 <= i < |rs| && rs[i].id == id;
        assert rs[1..][i - 1].id == id;
      }
      if HasId(rs[1..], id) {
        var i :| 0 <= i < |rs[1..]| && rs[1..][i].id == id;
        assert rs[i + 1].id == id;
      }
    } else {
      assert [s][1..] == [];
    }
  }

}

=== FILE: storage.dfy ===
/** The four storage operations of with_txt/student.c as functions of the
    file's state. The file is the sequence of its lines, each line kept as it
    was written (any name length, any number of scores); reading a line goes
    through `FromLine`, which is what initStudent and addNote make of it.
    Whether `fopen` succeeds is a parameter, since it depends on the
    operating system. */
module Storage {
  import opened Optional
  import opened StudentRecord
  import opened RecordList
  import opened Lexer
  import opened Codec

  /** The data file: absent, or present with its lines in order. */
  datatype FileState = Missing | Present(records: seq<Student>)

  /** What an operation returns (1 / 0 in the C code) and the file afterwards. */
  datatype Outcome = Outcome(ok: bool, file: FileState)

  /** The lines of the file; an absent file has none (append mode creates it). */
  function Lines(f: FileState): seq<Student> {
    if f.Missing? then [] else f.records
  }

  /** Every line of the file as the scan loop rebuilds it. */
  function LoadAll(lines: seq<Student>): (r: seq<Student>)
    ensures |r| == |lines|
    ensures forall i :: 0 <= i < |lines| ==> r[i] == FromLine(lines[i])
  {
    if lines == [] then [] else [FromLine(lines[0])] + LoadAll(lines[1..])
  }

  /** Loading keeps every id. */
  lemma LoadAllKeepsIds(lines: seq<Student>, id: int)
    ensures HasId(LoadAll(lines), id) <==> HasId(lines, id)
  {
    var r := LoadAll(lines);
    if HasId(r, id) {
      var i :| 0 <= i < |r| && r[i].id == id;
      assert lines[i].id == id;
    }
    if HasId(lines, id) {
      var i :| 0 <= i < |lines| && lines[i].id == id;
      assert r[i].id == id;
    }
  }

  /** A file whose lines all fit the struct loads unchanged. */
  lemma LoadAllFixesValid(lines: seq<Student>)
    requires forall i :: 0 <= i < |lines| ==> Valid(lines[i])
    ensures LoadAll(lines) == lines
  {
  }

  lemma LoadAllAppend(lines: seq<Student>, s: Student)
    ensures LoadAll(lines + [s]) == LoadAll(lines) + [FromLine(s)]
  {
  }

  /** createStudent: when the file opens for appending (it is created if
      absent) exactly one line, the record, follows all existing lines, which
      are left as they were; no check for a duplicate id is made. */
  function Create(f: FileState, s: Student, canAppend: bool): (r: Outcome)
    ensures r.ok == canAppend
    ensures !r.ok ==> r.file == f
    ensures r.ok ==> r.file.Present? && |r.file.records| == |Lines(f)| + 1
                     && r.file.records[..|Lines(f)|] == Lines(f)
                     && r.file.records[|Lines(f)|] == s
  {
    if !canAppend then Outcome(false, f) else Outcome(true, Present(Lines(f) + [s]))
  }

  /** readStudent: the first line, in file order, whose id matches, as
      initStudent and addNote rebuild it; nothing when the file is absent or
      no line matches. */
  function Read(f: FileState, id: int): (r: Option<Student>)
    ensures r.None? <==> f.Missing? || !HasId(f.records, id)
    ensures r.Some? ==> f.Present? && r.value.id == id && Valid(r.value)
                        && exists i :: 0 <= i < |f.records| && r.value == FromLine(f.records[i])
                                       && forall j :: 0 <= j < i ==> f.records[j].id != id
  {
    if f.Missing? then None
    else
      LoadAllKeepsIds(f.records, id);
      FirstMatch(LoadAll(f.records), id)
  }

  /** updateStudent: with the file present and the temporary file open, every
      line is rewritten; each line whose id matches is replaced by the whole
      new record, every other line is written back as loaded; the result says
      whether any line matched. Otherwise nothing changes and 0 is returned. */
  function Update(f: FileState, s: Student, canOpenTemp: bool): (r: Outcome)
    ensures f.Missing? || !canOpenTemp ==> !r.ok && r.file == f
    ensures f.Present? && canOpenTemp ==>
              && r.ok == HasId(f.records, s.id)
              && r.file.Present?
              && |r.file.records| == |f.records|
              && forall i :: 0 <= i < |f.records| ==>
                   r.file.records[i] == if f.records[i].id == s.id then s else FromLine(f.records[i])
  {
    if f.Missing? || !canOpenTemp then Outcome(false, f)
    else
      Outcome(HasId(f.records, s.id), Present(ReplaceMatching(LoadAll(f.records), s)))
  }

  /** deleteStudent: with the file present and the temporary file open, the
      file keeps exactly the lines whose id differs, as loaded and in order;
      the result says whether any line was dropped. Otherwise nothing changes
      and 0 is returned. */
  function Delete(f: FileState, id: int, canOpenTemp: bool): (r: Outcome)
    ensures f.Missing? || !canOpenTemp ==> !r.ok && r.file == f
    ensures f.Present? && canOpenTemp ==>
              && r.ok == HasId(f.records, id)
              && r.file.Present?
              && r.file.records == RemoveMatching(LoadAll(f.records), id)
              && |r.file.records| == |f.records| - CountId(f.records, id)
  {
    if f.Missing? || !canOpenTemp then Outcome(false, f)
    else
      LoadAllKeepsIds(f.records, id);
      CountIdLoaded(f.records, id);
      Outcome(HasId(f.records, id), Present(RemoveMatching(LoadAll(f.records), id)))
  }

  lemma {:induction false} CountIdLoaded(lines: seq<Student>, id: int)
    ensures CountId(LoadAll(lines), id) == CountId(lines, id)
  {
    if lines != [] {
      CountIdLoaded(lines[1..], id);
      assert LoadAll(lines)[1..] == LoadAll(lines[1..]);
    }
  }

  /** Appending a line never changes what an id already in the file reads
      as, since duplicates are not checked and the earlier line wins; a new id
      reads back as the appended line, loaded. The scan loop reads the lines
      back only when every name is one non-empty token. */
  lemma ReadAfterCreate(f: FileState, s: Student, id: int)
    requires Writable(Lines(f)) && IsToken(s.name)
    ensures Read(Create(f, s, true).file, id)
         == if f.Present? && HasId(f.records, id) then Read(f, id)
            else if s.id == id then Some(FromLine(s)) else None
  {
    var lines := Lines(f);
    LoadAllAppend(lines, s);
    LoadAllKeepsIds(lines, id);
    ReadAfterAppend(LoadAll(lines), FromLine(s), id);
  }

  /** A record that fits the struct and whose id is new reads back as itself
      after createStudent, when every name is one token. */
  lemma CreateThenRead(f: FileState, s: Student)
    requires Writable(Lines(f)) && IsToken(s.name)
    requires Valid(s) && !HasId(Lines(f), s.id)
    ensures Read(Create(f, s, true).file, s.id) == Some(s)
  {
    ReadAfterCreate(f, s, s.id);
  }

  /** Updating an id that is not in a file of well-formed lines reports 0 and
      rewrites the file with the same lines. */
  lemma UpdateUnknownId(f: FileState, s: Student)
    requires f.Present? && !HasId(f.records, s.id)
    requires forall i :: 0 <= i < |f.records| ==> Valid(f.records[i])
    ensures Update(f, s, true) == Outcome(false, f)
  {
    LoadAllFixesValid(f.records);
  }

  /** Reading through LoadAll skips the loading for lines that already fit:
      if loading leaves unchanged every line whose id differs from `id`, any
      other id reads back the same. */
  lemma {:induction false} ReadOtherLoaded(rs: seq<Student>, id: int, other: int)
    requires forall i :: 0 <= i < |rs| && rs[i].id != id ==> FromLine(rs[i]) == rs[i]
    requires other != id
    ensures FirstMatch(LoadAll(rs), other) == FirstMatch(rs, other)
  {
    if rs != [] {
      assert LoadAll(rs)[1..] == LoadAll(rs[1..]);
      ReadOtherLoaded(rs[1..], id, other);
    }
  }

  /** A file whose lines all fit the struct reads as a plain first-match
      search over its lines. */
  lemma ReadValidLines(rs: seq<Student>, id: int)
    requires forall i :: 0 <= i < |rs| ==> Valid(rs[i])
    ensures Read(Present(rs), id) == FirstMatch(rs, id)
  {
    LoadAllFixesValid(rs);
  }

  /** After a successful update the id reads back as the new record, provided
      the record fits the struct and every name is one token. */
  lemma ReadAfterUpdate(f: FileState, s: Student)
    requires f.Present? && Writable(f.records) && IsToken(s.name)
    requires HasId(f.records, s.id) && Valid(s)
    ensures Read(Update(f, s, true).file, s.id) == Some(s)
  {
    var loaded := LoadAll(f.records);
    var out := ReplaceMatching(loaded, s);
    assert Update(f, s, true).file == Present(out);
    LoadAllKeepsIds(f.records, s.id);
    ReadAfterReplace(loaded, s, s.id);
    forall i | 0 <= i < |out| ensures Valid(out[i]) {
      if loaded[i].id != s.id {
        assert out[i] == FromLine(f.records[i]);
      }
    }
    ReadValidLines(out, s.id);
  }

  /** An update leaves every other id reading back as before, when every
      name is one token. */
  lemma ReadOtherAfterUpdate(f: FileState, s: Student, other: int)
    requires f.Present? && Writable(f.records) && IsToken(s.name)
    requires other != s.id
    ensures Read(Update(f, s, true).file, other) == Read(f, other)
  {
    var loaded := LoadAll(f.records);
    var out := ReplaceMatching(loaded, s);
    ReadAfterReplace(loaded, s, other);
    ReadOtherLoaded(out, s.id, other);
  }

  /** After a delete the id cannot be read back. */
  lemma ReadAfterDelete(f: FileState, id: int)
    ensures Read(Delete(f, id, true).file, id).None?
  {
    if f.Present? {
      var out := RemoveMatching(LoadAll(f.records), id);
      LoadAllKeepsIds(out, id);
    }
  }

  /** Removal keeps only loaded lines, which all fit the struct. */
  lemma RemoveKeepsValid(lines: seq<Student>, id: int)
    ensures forall i :: 0 <= i < |RemoveMatching(LoadAll(lines), id)| ==>
              Valid(RemoveMatching(LoadAll(lines), id)[i])
  {
    var loaded := LoadAll(lines);
    var out := RemoveMatching(loaded, id);
    RemoveContents(loaded, id);
    forall i | 0 <= i < |out| ensures Valid(out[i]) {
      assert out[i] in loaded;
      var j :| 0 <= j < |loaded| && loaded[j] == out[i];
      assert loaded[j] == FromLine(lines[j]);
    }
  }

  /** A delete leaves every other id reading back as before. */
  lemma ReadOtherAfterDelete(f: FileState, id: int, other: int)
    requires other != id
    ensures Read(Delete(f, id, true).file, other) == Read(f, other)
  {
    if f.Present? {
      var loaded := LoadAll(f.records);
      var out := RemoveMatching(loaded, id);
      assert Delete(f, id, true).file == Present(out);
      RemoveKeepsValid(f.records, id);
      ReadValidLines(out, other);
      ReadAfterRemove(loaded, id, other);
    }
  }

  /** A line declaring more than MAX_NOTES scores keeps only its first
      MAX_NOTES once any update rewrites the file, even an update of another
      id: the rewrite is not content-preserving for such lines. */
  lemma UpdateTruncatesOverfullLine(f: FileState, s: Student, i: nat)
    requires f.Present? && i < |f.records|
    requires |f.records[i].notes| > MAX_NOTES && f.records[i].id != s.id
    ensures Update(f, s, true).file.records[i].notes == f.records[i].notes[..MAX_NOTES]
    ensures Update(f, s, true).file != f
  {
    assert |Update(f, s, true).file.records[i].notes| != |f.records[i].notes|;
  }

  /** The same happens to the kept lines on a delete. */
  lemma DeleteTruncatesOverfullLine(f: FileState, id: int, i: nat)
    requires f.Present? && i < |f.records|
    requires |f.records[i].notes| > MAX_NOTES && f.records[i].id != id
    ensures FromLine(f.records[i]) in Delete(f, id, true).file.records
    ensures f.records[i] !in Delete(f, id, true).file.records
  {
    var loaded := LoadAll(f.records);
    RemoveContents(loaded, id);
    assert loaded[i] in loaded;
  }

  /** The worked scenario: create Jean (1) and Alice (2), read Jean back,
      delete Jean, and Jean is gone while
      Alice reads back unchanged. */
  lemma Scenario()
    ensures var jean := Student(1, "Jean", [1250, 1575]);
            var alice := Student(2, "Alice", [1000, 1400, 975]);
            var f := Create(Create(Missing, jean, true).file, alice, true).file;
            var g := Delete(f, 1, true);
            && Read(f, 1) == Some(jean)
            && g.ok
            && Read(g.file, 1) == None
            && Read(g.file, 2) == Some(alice)
  {
    var jean := Student(1, "Jean", [1250, 1575]);
    var alice := Student(2, "Alice", [1000, 1400, 975]);
    var f1 := Create(Missing, jean, true).file;
    assert IsToken(jean.name) && IsToken(alice.name);
    CreateThenRead(Missing, jean);
    assert f1.records == [jean];
    assert Writable(Lines(f1));
    ReadAfterCreate(f1, alice, 1);
    CreateThenRead(f1, alice);
    var f := Create(f1, alice, true).file;
    assert HasId(f.records, 1) by { assert f.records[0].id == 1; }
    ReadAfterDelete(f, 1);
    ReadOtherAfterDelete(f, 1, 2);
    ReadAfterCreate(f1, alice, 2);
  }

}

=== FILE: student.dfy ===
/** The in-memory student record (the `Student` struct of with_txt/student.h)
    and the three record operations that compute something: initStudent,
    addNote and calculateAverage. */
module StudentRecord {

  /** Size of the name buffer, terminator included: at most 49 characters are stored. */
  const MAX_NAME_LEN: nat := 50

  /** Capacity of the score array. */
  const MAX_NOTES: nat := 20

  /** A score, held as an integer number of hundredths (12.50 is 1250), so that
      the two-decimal text written to the file is exact. */
  type Centi = int

  /** One student: the id, the characters of the name before its terminator,
      and the scores in the order they were added. */
  datatype Student = Student(id: int, name: string, notes: seq<Centi>)

  /** What the fixed-size struct can hold. */
  predicate Valid(s: Student) {
    |s.name| < MAX_NAME_LEN && |s.notes| <= MAX_NOTES
  }

  function Min(a: int, b: int): int {
    if a <= b then a else b
  }

  /** The name as `strncpy` into the 50-character buffer leaves it once the
      last byte is forced to the terminator: the longest prefix of at most
      MAX_NAME_LEN - 1 characters. */
  function TruncateName(name: string): (r: string)
    ensures r <= name
    ensures |r| == Min(|name|, MAX_NAME_LEN - 1)
  {
    if |name| < MAX_NAME_LEN then name else name[..MAX_NAME_LEN - 1]
  }

  /** initStudent: the given id, no scores, and the name truncated to fit. */
  function InitStudent(id: int, name: string): (r: Student)
    ensures r.id == id && r.notes == []
    ensures r.name <= name && |r.name| == Min(|name|, MAX_NAME_LEN - 1)
    ensures Valid(r)
  {
    Student(id, TruncateName(name), [])
  }

  /** addNote: appends the score while there is room, otherwise leaves the
      record as it was (the C code only prints a notice). */
  function AddNote(s: Student, note: Centi): (r: Student)
    ensures r.id == s.id && r.name == s.name
    ensures |s.notes| < MAX_NOTES ==> r.notes == s.notes + [note]
    ensures |s.notes| >= MAX_NOTES ==> r == s
    ensures Valid(s) ==> Valid(r)
  {
    if |s.notes| < MAX_NOTES then s.(notes := s.notes + [note]) else s
  }

  /** addNote called once per score, in order: the id and name stay, the
      scores already held stay in front, and a full record is left as is. */
  function AddNotes(s: Student, notes: seq<Centi>): (r: Student)
    ensures r.id == s.id && r.name == s.name
    ensures s.notes <= r.notes
    ensures |s.notes| <= MAX_NOTES ==> |r.notes| <= MAX_NOTES
    ensures |s.notes| >= MAX_NOTES ==> r == s
    decreases |notes|
  {
    if notes == [] then s else AddNotes(AddNote(s, notes[0]), notes[1..])
  }

  /** Adding a run of scores keeps exactly as many of them, from the front,
      as there is room for, and never exceeds the capacity. */
  lemma {:induction false} AddNotesKeepsPrefix(s: Student, notes: seq<Centi>)
    requires |s.notes| <= MAX_NOTES
    ensures AddNotes(s, notes)
         == s.(notes := s.notes + notes[..Min(|notes|, MAX_NOTES - |s.notes|)])
    decreases |notes|
  {
    if notes == [] {
      assert notes[..0] == [];
    } else if |s.notes| < MAX_NOTES {
      var t := s.(notes := s.notes + [notes[0]]);
      assert AddNote(s, notes[0]) == t;
      AddNotesKeepsPrefix(t, notes[1..]);
      var k := Min(|notes[1..]|, MAX_NOTES - |t.notes|);
      assert notes[1..][..k] == notes[1..k + 1];
      calc {
        t.notes + notes[1..k + 1];
        (s.notes + [notes[0]]) + notes[1..k + 1];
        s.notes + ([notes[0]] + notes[1..k + 1]);
        { assert [notes[0]] + notes[1..k + 1] == notes[..k + 1]; }
        s.notes + notes[..k + 1];
      }
    } else {
      assert notes[..0] == [];
      assert s.notes + [] == s.notes;
    }
  }

  /** Calling addNote MAX_NOTES + 1 times on a fresh record stores exactly
      MAX_NOTES scores: the excess one is rejected. */
  lemma OneTooManyIsRejected(id: int, name: string, notes: seq<Centi>)
    requires |notes| == MAX_NOTES + 1
    ensures |AddNotes(InitStudent(id, name), notes).notes| == MAX_NOTES
    ensures AddNotes(InitStudent(id, name), notes).notes == notes[..MAX_NOTES]
  {
    AddNotesKeepsPrefix(InitStudent(id, name), notes);
  }

  /** The record a decoded file line becomes: initStudent on the id and the
      name token, then addNote on every score the line carries. The name is
      truncated and only the first MAX_NOTES scores survive. */
  function FromLine(line: Student): (r: Student)
    ensures Valid(r)
    ensures r.id == line.id
    ensures r.name == TruncateName(line.name)
    ensures r.notes == line.notes[..Min(|line.notes|, MAX_NOTES)]
    ensures Valid(line) ==> r == line
  {
    AddNotesKeepsPrefix(InitStudent(line.id, line.name), line.notes);
    AddNotes(InitStudent(line.id, line.name), line.notes)
  }

  function Sum(notes: seq<Centi>): int {
    if notes == [] then 0 else notes[0] + Sum(notes[1..])
  }

  /** calculateAverage, in hundredths: the exact mean of the scores, and 0
      when there are none. */
  function Average(s: Student): (r: real)
    ensures |s.notes| == 0 ==> r == 0.0
    ensures |s.notes| > 0 ==> r * (|s.notes| as real) == Sum(s.notes) as real
  {
    if |s.notes| == 0 then 0.0 else Sum(s.notes) as real / (|s.notes| as real)
  }

  lemma {:induction false} SumBounds(notes: seq<Centi>, lo: int, hi: int)
    requires forall i :: 0 <= i < |notes| ==> lo <= notes[i] <= hi
    ensures lo * |notes| <= Sum(notes) <= hi * |notes|
  {
    if notes != [] {
      SumBounds(notes[1..], lo, hi);
      assert lo * |notes| == lo + lo * |notes[1..]|;
      assert hi * |notes| == hi + hi * |notes[1..]|;
    }
  }

  lemma MeanAtLeast(lo: int, total: int, k: nat, a: real)
    requires k > 0 && lo * k <= total && a * (k as real) == total as real
    ensures lo as real <= a
  {
    assert (lo * k) as real == (lo as real) * (k as real);
  }

  lemma MeanAtMost(hi: int, total: int, k: nat, a: real)
    requires k > 0 && total <= hi * k && a * (k as real) == total as real
    ensures a <= hi as real
  {
    assert (hi * k) as real == (hi as real) * (k as real);
  }

  /** The average of a non-empty record lies between any lower and upper
      bound of its scores. */
  lemma AverageWithinBounds(s: Student, lo: int, hi: int)
    requires |s.notes| > 0
    requires forall i :: 0 <= i < |s.notes| ==> lo <= s.notes[i] <= hi
    ensures lo as real <= Average(s) <= hi as real
  {
    SumBounds(s.notes, lo, hi);
    MeanAtLeast(lo, Sum(s.notes), |s.notes|, Average(s));
    MeanAtMost(hi, Sum(s.notes), |s.notes|, Average(s));
  }

  /** Worked examples: the mean of 10.00 and 20.00 is 15.00; Jean's mean of
      12.50 and 15.75 is exactly 14.125. */
  lemma AverageExample()
    ensures Average(Student(1, "x", [1000, 2000])) == 1500.0
    ensures Average(Student(1, "Jean", [1250, 1575])) == 1412.5
  {
    assert Sum([1000, 2000]) == 3000;
    assert Sum([1250, 1575]) == 2825;
  }

}

=== FILE: textfile.dfy ===
/** The storage operations seen through the file's text: the file holds the
    lines createStudent, updateStudent and deleteStudent print, and every
    read goes through the `fscanf` loop. */
module TextFile {
  import opened Optional
  import opened StudentRecord
  import opened RecordList
  import opened Lexer
  import opened Codec
  import opened Storage

  /** The text of the data file; an absent file reads as no text. */
  function Text(f: FileState): (r: string)
    ensures r == [] <==> Lines(f) == []
    ensures Lines(f) != [] ==> r[|r| - 1] == '\n'
  {
    EncodeFile(Lines(f))
  }

  /** Cutting a name that is one token to 49 characters leaves one token. */
  lemma TruncatedTokenIsToken(name: string)
    requires IsToken(name)
    ensures IsToken(TruncateName(name))
  {
    var r := TruncateName(name);
    assert forall i :: 0 <= i < |r| ==> r[i] == name[i];
  }

  /** Lines that were writable stay writable once loaded. */
  lemma LoadAllWritable(lines: seq<Student>)
    requires Writable(lines)
    ensures Writable(LoadAll(lines))
  {
    forall i | 0 <= i < |lines| ensures IsToken(LoadAll(lines)[i].name) {
      TruncatedTokenIsToken(lines[i].name);
    }
  }

  /** createStudent opens the file in append mode: on success the new text is
      the old text followed by exactly the new line. */
  lemma CreateAppendsLine(f: FileState, s: Student)
    ensures Text(Create(f, s, true).file) == Text(f) + EncodeLine(s)
  {
    EncodeFileAppend(Lines(f), s);
  }

  /** After a successful createStudent, the scan loop reads every earlier line
      and then the new record, provided every name is one token. */
  lemma DecodeAfterCreate(f: FileState, s: Student)
    requires Writable(Lines(f)) && IsToken(s.name)
    ensures DecodeFile(Text(f) + EncodeLine(s)) == Some(Lines(f) + [s])
  {
    var lines := Lines(f);
    var rs := lines + [s];
    forall i | 0 <= i < |rs| ensures IsToken(rs[i].name) {
      if i < |lines| {
        assert rs[i] == lines[i];
      }
    }
    EncodeFileAppend(lines, s);
    assert Text(f) + EncodeLine(s) == EncodeFile(rs);
    FileRoundTrip(rs);
  }

  /** The stopping scan, which stops at a line it cannot read, reads the
      same records from that text. */
  lemma ScanAfterCreate(f: FileState, s: Student)
    requires Writable(Lines(f)) && IsToken(s.name)
    ensures ScanUntilStuck(Tokens(Text(f) + EncodeLine(s))) == Lines(f) + [s]
  {
    var ts := Tokens(Text(f) + EncodeLine(s));
    DecodeAfterCreate(f, s);
    assert ParseRecords(ts) == Some(Lines(f) + [s]);
    ScanAgrees(ts);
  }

  /** A record that fits the struct, with a new id and a one-token name,
      reads back as itself from the text createStudent leaves behind. */
  lemma CreateThenReadText(f: FileState, s: Student)
    requires Writable(Lines(f)) && IsToken(s.name)
    requires Valid(s) && !HasId(Lines(f), s.id)
    ensures DecodeFile(Text(f) + EncodeLine(s)).Some?
    ensures Read(Present(DecodeFile(Text(f) + EncodeLine(s)).value), s.id) == Some(s)
  {
    DecodeAfterCreate(f, s);
    CreateThenRead(f, s);
  }

  /** updateStudent keeps every name one token when the new one is. */
  lemma UpdateKeepsWritable(f: FileState, s: Student)
    requires f.Present? && Writable(f.records) && IsToken(s.name)
    ensures Writable(Update(f, s, true).file.records)
  {
    var rs := Update(f, s, true).file.records;
    forall i | 0 <= i < |rs| ensures IsToken(rs[i].name) {
      if f.records[i].id != s.id {
        TruncatedTokenIsToken(f.records[i].name);
      }
    }
  }

  /** deleteStudent keeps every name one token. */
  lemma DeleteKeepsWritable(f: FileState, id: int)
    requires f.Present? && Writable(f.records)
    ensures Writable(Delete(f, id, true).file.records)
  {
    var loaded := LoadAll(f.records);
    LoadAllWritable(f.records);
    RemoveContents(loaded, id);
    var rs := RemoveMatching(loaded, id);
    forall i | 0 <= i < |rs| ensures IsToken(rs[i].name) {
      assert rs[i] in loaded;
    }
  }

  /** The file updateStudent writes through `temp.txt` reads back as exactly
      the records it wrote, when every name involved is one token. */
  lemma UpdatedTextReadsBack(f: FileState, s: Student)
    requires f.Present? && Writable(f.records) && IsToken(s.name)
    ensures DecodeFile(Text(Update(f, s, true).file)) == Some(Update(f, s, true).file.records)
  {
    UpdateKeepsWritable(f, s);
    FileRoundTrip(Update(f, s, true).file.records);
  }

  /** The file deleteStudent writes through `temp.txt` reads back as exactly
      the records it kept, when every name is one token. */
  lemma DeletedTextReadsBack(f: FileState, id: int)
    requires f.Present? && Writable(f.records)
    ensures DecodeFile(Text(Delete(f, id, true).file)) == Some(Delete(f, id, true).file.records)
  {
    DeleteKeepsWritable(f, id);
    FileRoundTrip(Delete(f, id, true).file.records);
  }
}
